=== FILE: README.md ===
# rdfgenutils: N-Triples serialisation, modelled in Dafny

`rdfgenutils` writes RDF as N-Triples. A caller passes plain strings for a
subject, a predicate, an object and an optional language tag or `xsd:`
datatype. `triple` turns them into one statement line:

- IRIs go in angle brackets, after `clean_uri` percent-encodes twelve
  characters it treats as invalid in a URI.
- A predicate `prefix:local` is expanded through a table of namespace
  prefixes (`NamespaceManagerClass`).
- Literal values are quoted. `literal` escapes them and `ntencode` turns
  their newlines and non-ASCII characters into N-Triples escapes.
- `strip_ws` is a helper that deletes whitespace.

The model follows `rdfgenutils/__init__.py` branch by branch. Text is a
sequence of Unicode code points (`string`). The namespace table, a
module-level singleton in the source, is passed to `Triples.Triple` as a
`Namespaces.Manager` value. A Python exception becomes the `Err` case of a
`Result`: `KeyError(name)` for a missing prefix and `ValueError` for a
predicate that does not unpack into prefix and local name.

The project has nine files:

- `results.dfy`: the `Result` and `Option` types.
- `strings.dfy`: the Python string operations used.
  - `str.replace` is modelled exactly: leftmost, non-overlapping matches.
  - `str.split` is modelled on a single character.
  - A chain of one-character replacements is a table of `Rule`s. It is
    proved equal to a substitution that handles one character at a time.
- `hex.dfy`: the `'%X'` and `'%04X'` numerals and their values.
- `namespaces.dfy`: the prefix table.
- `encoding.dfy`: `ntencode`, `literal` and `clean_uri`, with per-character
  reference definitions.
- `decoding.dfy`: two readers, an N-Triples string-escape reader and a
  percent-code reader. They are the independent partners for the round
  trips.
- `triples.dfy`: `triple`.
- `lines.dfy`: whole lines for ordinary inputs.
- `whitespace.dfy`: `strip_ws`.

Four behaviours of `rdfgenutils/__init__.py` that a reader might not
expect. The model follows the code in each:

- `clean_uri` does not first escape a bare `%` as `%25`. A `%` is left
  alone, so a reserved character and its already-written code clean to
  the same code: `" "` and `"%20"` both give `%20`
  (`Encoding.CleanUriPercentKept`).
- The default table has no `xsd` prefix. The nine prefixes are at lines
  21-29, so `xsd:integer` as a predicate fails with `KeyError("xsd")`
  (`Lines.XsdPredicate`).
- An unknown prefix raises the dictionary's own `KeyError`. A predicate
  with more than one colon raises `ValueError` when unpacked.
- Only the line feed is escaped among line breaks. A carriage return in a
  literal is written raw, although it also ends an N-Triples line
  (`Encoding.LiteralRawCarriageReturn`).

Two more behaviours follow the code as written:

- The object of a literal has its quotes escaped twice: once at line 153
  and once more inside `literal`. A quote therefore reads back as
  backslash-quote (`Triples.QuoteEscapedTwice`).
- A predicate that is not `a`, not `http…` and has no colon writes
  nothing. This leaves two spaces between subject and object
  (`Triples.BarePredicate`).

Raw ASCII control characters other than newline, such as a tab, pass
through `ntencode` unchanged (`Encoding.NtEncodeKeeps`).

## Model

| member | source | states |
|---|---|---|
| Namespaces.Defaults | rdfgenutils/__init__.py:19-30 | A fresh table knows exactly the nine prefixes rdf, rdfs, owl, dc, dct, ov, foaf, geo and skos. |
| Namespaces.DefaultCount | rdfgenutils/__init__.py:20-30 | A fresh table has exactly nine entries. |
| Namespaces.DefaultNoXsd | rdfgenutils/__init__.py:20-36 | A fresh table has no `xsd` entry, so looking it up fails with `KeyError("xsd")`. |
| Namespaces.DefaultFoaf | rdfgenutils/__init__.py:27 | `foaf` is bound to `http://xmlns.com/foaf/0.1/`. |
| Namespaces.Get | rdfgenutils/__init__.py:35-36 | Looking a name up succeeds exactly when the name is bound, and gives its binding; otherwise it fails with `KeyError` naming it. |
| Namespaces.Add | rdfgenutils/__init__.py:32-33 | After `add`, the name is bound to the new IRI and the other names keep their bindings. The key set grows by at most that name. |
| Namespaces.AddTwice | rdfgenutils/__init__.py:32-33 | Adding a name twice is the same as adding it once with the second IRI: the last write wins. |
| Strings.Replace | rdfgenutils/__init__.py:94-96 | Python's `str.replace`: every non-overlapping occurrence of the pattern, found left to right, is replaced. A definition; `Strings.ReplaceAbsent`, `Strings.ReplaceChars` and `Strings.ReplaceEachIsSubstAll` state its properties. |
| Strings.ReplaceAbsent | rdfgenutils/__init__.py:96 | Replacing a pattern that does not occur leaves the text unchanged. |
| Strings.ReplaceChars | rdfgenutils/__init__.py:94-95 | Every character of a replacement's result comes from the input or from the replacement text. |
| Strings.Split | rdfgenutils/__init__.py:144 | Splitting on a character gives one more part than there are occurrences of it. No part contains the separator, and joining the parts with it restores the text. |
| Strings.SplitOnce | rdfgenutils/__init__.py:144 | Text with exactly one separator splits into the two pieces around it. |
| Strings.ReplaceEachIsSubstAll | rdfgenutils/__init__.py:94-95 | A chain of one-character replacements equals replacing each character of the input once, by its table entry. This holds when no replacement text contains a key handled later in the chain. |
| Hex.Format04 | rdfgenutils/__init__.py:128 | The numeral is upper-case hex whose value is the code point. It has at least four digits: exactly four below U+10000, five up to U+FFFFF and six from U+100000. It has no leading zero when it is longer than four. |
| Encoding.NtEncode | rdfgenutils/__init__.py:108-129 | `ntencode`: newlines replaced by `\n`, then the text returned as it is when all ASCII, otherwise rebuilt a character at a time with `\u%04X` for each non-ASCII character. A definition with no contract of its own; the rows below state its properties. |
| Encoding.Literal | rdfgenutils/__init__.py:105-106 | `literal`: backslashes doubled, then quotes escaped, then `ntencode`. A definition with no contract of its own; `Encoding.LiteralByChar` and the rows after it state its properties. |
| Encoding.EscapeUri | rdfgenutils/__init__.py:94-95 | The twelve chained replacements of `clean_uri`, in source order. A definition with no contract of its own; `Encoding.EscapeUriByChar` states what it does. |
| Encoding.CleanUri | rdfgenutils/__init__.py:92-97 | `clean_uri`: the twelve replacements, then `&amp;` collapsed to `&` in one pass. A definition with no contract of its own; `Encoding.CleanUriSafe` and the rows after it state its properties. |
| Encoding.NtEncodeByChar | rdfgenutils/__init__.py:108-129 | `ntencode` agrees with a reference that maps each character separately: newline to `\n`, ASCII to itself, anything else to `\u` and its hex numeral. So the whole-string ASCII shortcut and the per-character loop agree. |
| Encoding.NtEncodeAppend | rdfgenutils/__init__.py:108-129 | Encoding a concatenation is the concatenation of the encodings. |
| Encoding.NtEncodeAscii | rdfgenutils/__init__.py:115-129 | Every character of the output is ASCII and none is a line feed. |
| Encoding.NtEncodeKeeps | rdfgenutils/__init__.py:115-119 | ASCII text without a newline is returned unchanged, control characters included. |
| Encoding.NtEncodeNonAscii | rdfgenutils/__init__.py:128 | A non-ASCII character becomes `\u` and hex digits whose value is its code point. That is six characters below U+10000 and at least six above. |
| Encoding.LiteralByChar | rdfgenutils/__init__.py:105-106 | `literal` agrees with a per-character reference: backslash to two backslashes, quote to backslash-quote, newline to `\n`, non-ASCII to `\u` escapes. |
| Encoding.LiteralAscii | rdfgenutils/__init__.py:105-106 | The output of `literal` is ASCII without a line feed. |
| Encoding.LiteralRawCarriageReturn | rdfgenutils/__init__.py:105-129 | The output of `literal` holds a carriage return exactly when its input does: only the line feed is escaped. |
| Encoding.LiteralQuotesEscaped | rdfgenutils/__init__.py:105-106 | The output of `literal` scans left to right as a quoted-string body. Every backslash is followed by the character it escapes, and no quote stands outside such an escape. |
| Encoding.LiteralKeeps | rdfgenutils/__init__.py:105-106 | ASCII text with no backslash, quote or newline is returned unchanged. |
| Encoding.LiteralBackslashQuote | rdfgenutils/__init__.py:106 | Backslashes are doubled before quotes are escaped, so backslash-quote becomes three backslashes and a quote. |
| Encoding.EscapeUriByChar | rdfgenutils/__init__.py:94-95 | The twelve chained replacements act as one substitution per character, in input order. Each reserved character becomes its fixed `%XX` code and every other character stays. |
| Encoding.EscapeUriKeeps | rdfgenutils/__init__.py:94-95 | Text with none of the twelve characters is unchanged by the replacements. |
| Encoding.CleanUriSafe | rdfgenutils/__init__.py:92-97 | The output of `clean_uri` contains none of the twelve reserved characters. |
| Encoding.CleanUriKeeps | rdfgenutils/__init__.py:92-97 | Text with no reserved character and no `&amp;` is returned unchanged. |
| Encoding.CleanUriIdempotent | rdfgenutils/__init__.py:92-97 | Cleaning twice equals cleaning once, whenever the first result holds no `&amp;`. |
| Encoding.CleanUriOnePass | rdfgenutils/__init__.py:96 | `&amp;` is collapsed in one left-to-right pass, so `&amp;amp;` becomes `&amp;` and only a second call gives `&`. |
| Encoding.CleanUriPercentKept | rdfgenutils/__init__.py:92-97 | A reserved character cleans to a three-character code starting with `%`, and cleaning that code again leaves it as it is. `%` is not escaped, so a character and its already-written code give the same IRI. |
| Encoding.UriCodesMeanKeys | rdfgenutils/__init__.py:94-95 | Each of the twelve replacement texts is the percent-encoding of the character it replaces: `%` and two hex digits whose value is that character's code point. |
| Encoding.CodeValue | rdfgenutils/__init__.py:94-95 | The byte a `%XX` code stands for is the value of its two hex digits as a numeral, below 256. |
| Encoding.SameCode | rdfgenutils/__init__.py:94-95 | Two upper-case `%XX` codes for the same byte are the same text. |
| Encoding.ReservedEscaped | rdfgenutils/__init__.py:92-97 | A reserved character on its own cleans to the replacement text its table entry gives: `%` and two upper-case hex digits whose value is the character's code point. |
| Encoding.CodeKept | rdfgenutils/__init__.py:92-97 | Text made only of `%` and upper-case hex digits is returned unchanged. |
| Encoding.EscapeUriNoAmpersand | rdfgenutils/__init__.py:94-95 | The twelve replacements add no `&`, so text without one gives the `&amp;` collapse nothing to do. |
| Encoding.LiteralAppend | rdfgenutils/__init__.py:105-129 | `literal` of a concatenation is the concatenation of the two `literal`s. |
| Encoding.LiteralNonAscii | rdfgenutils/__init__.py:105-128 | A lone non-ASCII character is written as `\u` and its `%04X` numeral. |
| Decoding.LiteralRoundTrip | rdfgenutils/__init__.py:105-129 | Reading the N-Triples string escapes of `literal`'s output once gives back the input, for text below U+10000. |
| Decoding.LiteralBeyondBmp | rdfgenutils/__init__.py:128 | Above U+FFFF the escape has more than four hex digits (`Hex.Format04` gives the count): U+1F600 becomes `\u1F600`, which a four-digit `\u` reader reads as U+1F60 followed by `0`, not as the input. |
| Decoding.CodeKeyOfRules | rdfgenutils/__init__.py:94-95 | A percent-code reader that takes the two hex digits as a code point, without consulting the replacement table, reads every replacement text as the character it replaces. |
| Decoding.CodeKeyOnlyRules | rdfgenutils/__init__.py:94-95 | The reader accepts only the replacement texts: whatever it reads as a code is a (character, text) pair of the table. |
| Decoding.EscapeUriRoundTrip | rdfgenutils/__init__.py:94-95 | For text without `%`, decoding the twelve percent codes undoes the replacements, so no character is lost or confused. |
| Encoding.SubstAllNoEntity | rdfgenutils/__init__.py:94-96 | The twelve replacements never create an `&amp;`, so text without one gives the collapse at line 96 nothing to do. |
| Decoding.CleanUriRoundTrip | rdfgenutils/__init__.py:92-97 | For text without `%` or `&amp;`, decoding the percent codes undoes all of `clean_uri`. A bare `&`, as in a query string, comes back unchanged. |
| Decoding.CleanUriCharDecodes | rdfgenutils/__init__.py:92-97 | What `clean_uri` writes for a reserved character is read back as that character. |
| Triples.SubjectTerm | rdfgenutils/__init__.py:133-136 | The subject field: `<clean_uri(s)>` for an `http` subject, the subject as it is otherwise. A definition; `Triples.TripleSubject` states it of the line. |
| Triples.PredicateTerm | rdfgenutils/__init__.py:139-145 | The predicate field: `rdf:type` for `a`, an `http` IRI wrapped as it is, `prefix:local` split and expanded through the table with `ValueError` or `KeyError` on failure, nothing otherwise. A definition; the predicate lemmas below state each case. |
| Triples.LiteralSuffix | rdfgenutils/__init__.py:155-159 | The literal suffix: `^^<` + XML Schema IRI for an `xsd:` tag, `@tag` for an alphabetic tag, nothing otherwise. A definition; `Triples.SuffixChoice` states it. |
| Triples.ObjectTerm | rdfgenutils/__init__.py:148-159 | The object field: IRI, blank node or quoted literal with its suffix, tried in that order. A definition; `Triples.ObjectBranch` and `Triples.LiteralObject` state its cases. |
| Triples.Triple | rdfgenutils/__init__.py:131-162 | A line fails exactly when the predicate fails, and with the predicate's error. A successful line ends with a space, a full stop and a newline. |
| Triples.TripleSubject | rdfgenutils/__init__.py:133-136 | A subject starting with `http` opens the line cleaned and in angle brackets. Any other subject opens the line as it is. |
| Triples.TypePredicateAnyTable | rdfgenutils/__init__.py:139-140 | The predicate `a` gives the `rdf:type` IRI, and the line is the same whatever the namespace table holds. |
| Triples.IriPredicateUncleaned | rdfgenutils/__init__.py:141-142 | An `http` predicate is wrapped in angle brackets as it is. Its characters are not percent-encoded. |
| Triples.PrefixedPredicate | rdfgenutils/__init__.py:143-145 | `x:y` with one colon becomes `<` + the binding of `x` + `y` + `>`. When `x` is unbound it fails with `KeyError(x)`. |
| Triples.ManyColonsPredicate | rdfgenutils/__init__.py:144 | A non-`http` predicate with two or more colons fails with `ValueError`. |
| Triples.BarePredicate | rdfgenutils/__init__.py:139-147 | A predicate that is not `a`, not `http` and has no colon writes nothing, leaving two spaces between subject and object. |
| Triples.ObjectBranch | rdfgenutils/__init__.py:148-153 | The object term is never empty. Its first character is `<`, `_` or `"` exactly when the object takes the IRI, blank-node or literal branch. The branches are tried in that order. |
| Triples.NonLiteralIgnoresTag | rdfgenutils/__init__.py:148-159 | An IRI object or a blank-node object is written the same whatever the tag: suffixes go only on literals. |
| Triples.LiteralObject | rdfgenutils/__init__.py:152-159 | For every literal object: a quoted body followed by the suffix, the body ASCII without a newline, and the body scanning as a quoted-string body in which every backslash takes the next character and no quote is bare. For an object below U+10000 the body also reads back to the object with its quotes escaped once already. |
| Triples.QuoteEscapedTwice | rdfgenutils/__init__.py:153 | A single quote as the object is written `"\\\""` and reads back as backslash-quote. |
| Triples.SuffixChoice | rdfgenutils/__init__.py:155-159 | An `xsd:` tag gives `^^<` + the XML Schema namespace + the rest of the tag + `>`. Otherwise an alphabetic tag gives `@tag`. Any other tag, including the empty one, gives no suffix. |
| Lines.PlainValue | rdfgenutils/__init__.py:152-153 | Printable ASCII without quote, backslash or newline is quoted verbatim and then followed by its suffix. |
| Lines.PlainStatement | rdfgenutils/__init__.py:131-161 | Two plain `http` IRIs and a plain value with no tag give `<s> <p> "o" .` and a newline, whatever the table. |
| Lines.FoafPredicate | rdfgenutils/__init__.py:143-145 | `foaf:local` resolves through the default table to `<http://xmlns.com/foaf/0.1/local>`. |
| Lines.UnknownPrefix | rdfgenutils/__init__.py:143-145 | `xyz:foo` fails with `KeyError("xyz")` under the default table. |
| Lines.XsdPredicate | rdfgenutils/__init__.py:143-145 | `xsd:integer` as a predicate fails with `KeyError("xsd")` under the default table. |
| Lines.CafeObject | rdfgenutils/__init__.py:152-159 | `Café` tagged `en` is written `"Caf\u00E9"@en`: the `é` goes through `ntencode` as a four-digit `\u` escape. |
| Whitespace.SubSpace | rdfgenutils/__init__.py:63 | `re.sub('\s+', '', text, count)`: deletes the first `count` whitespace runs, or every run when `count` is 0. A definition; `Whitespace.SubSpaceAll` and `Whitespace.SubSpaceLimited` state what it does. |
| Whitespace.StripWs | rdfgenutils/__init__.py:61-64 | `strip_ws` as written: `\s+` runs deleted with `re.S`, that is 16, in the count position. A definition; `Whitespace.StripWsLimit` states what it does. |
| Whitespace.RemoveRunsKeeps | rdfgenutils/__init__.py:63 | Deleting whitespace runs keeps every other character, in order. |
| Whitespace.RemoveRunsCount | rdfgenutils/__init__.py:63 | Deleting `k` runs leaves `Runs(s) - k` runs, or none when `s` has at most `k`. |
| Whitespace.RemoveRunsPrefix | rdfgenutils/__init__.py:63 | Deleting `k` runs deletes the whitespace of a prefix holding the first `k` runs (all runs when there are fewer) and leaves the text after that prefix unchanged. |
| Whitespace.SubSpaceAll | rdfgenutils/__init__.py:63 | A substitution with no limit, or with a limit at least the number of runs, leaves exactly the non-whitespace characters. |
| Whitespace.SubSpaceLimited | rdfgenutils/__init__.py:63 | A limit below the number of runs leaves whitespace behind: `Runs(text) - count` runs and the same non-whitespace characters. The result is some prefix holding exactly `count` runs with its whitespace dropped, followed by the rest of the text unchanged. |
| Whitespace.StripWsLimit | rdfgenutils/__init__.py:61-64 | `strip_ws` removes all whitespace from text with at most sixteen runs, and leaves whitespace in text with more. |
| Whitespace.SeventeenRuns | rdfgenutils/__init__.py:63 | Eighteen letters separated by seventeen single spaces keep their last space. |
| Whitespace.StripAllWsClean | rdfgenutils/__init__.py:63 | The corrected `strip_ws` leaves no whitespace and keeps every other character in order. |

## Left out

- `kasabi_reset`, `kasabi_store`: they make HTTP requests and read files, so they are I/O rather than serialisation.
- `slugify`, `propertify`, `strip_markup`, `convertentity`: these are text clean-up helpers, not part of writing N-Triples. They rely on Python's regular-expression engine and HTML entity table.
- `is_uri` and `url_re`: these are a regular-expression match that `triple` never calls.
- `setup.py` and packaging.
- The module-level `NamespaceManager` singleton: it becomes an explicit `Namespaces.Manager` argument. Its mutation by `add` becomes a new value.
- Python 2 byte strings: all text is code points. The `encoding` argument of `ntencode` is fixed at its default, ASCII. A byte string with non-ASCII bytes, which Python 2 would first fail to decode, is not modelled.
- Narrow Python 2 builds: there a character above U+FFFF is a surrogate pair and gets two `\u` escapes. The model follows wide builds, which give one escape with five or six hex digits.
- `str.isalpha` on a tag: only ASCII letters count as alphabetic, where Python's Unicode strings also accept other letters.
- Whitespace: `\s` is the six ASCII whitespace characters, as it is without the Unicode flag.
- Namespaces.Defaults: its contract states the key set, not all nine IRIs. The IRIs are those at lines 21-29, and `Namespaces.DefaultFoaf` states one of them.
- Decoding.LiteralRoundTrip: it holds only below U+10000, because the four-digit `\u` escape of N-Triples cannot carry more. `Decoding.LiteralBeyondBmp` shows the failure.
- Decoding.EscapeUriRoundTrip: it is stated for the twelve replacements and for input without `%`. `clean_uri` leaves an existing `%XX` alone, so on such input the encoding is not one-to-one.
- Decoding.CleanUriRoundTrip: it is stated for input without `%` or `&amp;`. The `&amp;` collapse maps `&amp;` and `&` to the same text, so `clean_uri` as a whole has no inverse.

## Findings

| source | as written | input that shows it | evidently intended | confidence | as-written member | corrected member |
|---|---|---|---|---|---|---|
| rdfgenutils/__init__.py:63 | `re.S` (value 16) is passed as the fourth positional argument of `re.sub`, which is the replacement count, so at most 16 whitespace runs are deleted | `x x x x x x x x x x x x x x x x x x` (17 single spaces) keeps its last space | pass `re.S` as `flags`, or no count at all, so that every whitespace run is deleted | not executed | Whitespace.StripWsLimit | Whitespace.StripAllWsClean |

=== FILE: decoding.dfy ===
/** Readers for what the escaping helpers write: the escape sequences of an
    N-Triples string literal, and the percent codes of `clean_uri`. They are
    the independent half of the round-trip properties of `literal` and of
    the replacements of `clean_uri`. */
module Decoding {
  import opened Results
  import opened Strings
  import opened Encoding
  import Hex

  /** Code points that are characters: everything up to U+10FFFF except the
      surrogates. */
  predicate IsScalar(v: int) {
    0 <= v < 0xD800 || 0xE000 <= v < 0x11_0000
  }

  function Prepend(c: char, r: Option<string>): Option<string> {
    match r
    case None => None
    case Some(t) => Some([c] + t)
  }

  /** The text the body of an N-Triples string literal stands for: `\\`,
      `\"`, `\n` and `\u` with four upper-case hex digits are escapes; a bare
      quote, a bare newline or any other backslash makes the body malformed. */
  function Unescape(s: string): Option<string>
    decreases |s|
  {
    if s == [] then Some([])
    else if s[0] == '"' || s[0] == '\n' then None
    else if s[0] != '\\' then Prepend(s[0], Unescape(s[1..]))
    else if |s| < 2 then None
    else if s[1] == '\\' then Prepend('\\', Unescape(s[2..]))
    else if s[1] == '"' then Prepend('"', Unescape(s[2..]))
    else if s[1] == 'n' then Prepend('\n', Unescape(s[2..]))
    else if s[1] == 'u' && |s| >= 6 && Hex.AllDigits(s[2..6]) && IsScalar(Hex.Value(s[2..6])) then
      Prepend(Hex.Value(s[2..6]) as char, Unescape(s[6..]))
    else None
  }

  /** Reading back what `literal` writes for one character gives the character. */
  lemma UnescapeLiteralChar(c: char, rest: string)
    requires c as int < 0x10000
    ensures Unescape(LiteralChar(c) + rest) == Prepend(c, Unescape(rest))
  {
    if c == '\\' || c == '"' || c == '\n' {
      UnescapeEscaped(c, rest);
    } else if IsAscii(c) {
      var s := LiteralChar(c) + rest;
      assert s[1..] == rest;
    } else {
      UnescapeHex(c, rest);
    }
  }

  lemma UnescapeEscaped(c: char, rest: string)
    requires c == '\\' || c == '"' || c == '\n'
    ensures Unescape(LiteralChar(c) + rest) == Prepend(c, Unescape(rest))
  {
    var s := LiteralChar(c) + rest;
    assert s[2..] == rest;
  }

  lemma UnescapeHex(c: char, rest: string)
    requires !IsAscii(c) && c as int < 0x10000
    ensures Unescape(LiteralChar(c) + rest) == Prepend(c, Unescape(rest))
  {
    var h := Hex.Format04(c as int);
    var s := LiteralChar(c) + rest;
    assert s == "\\u" + h + rest;
    assert s[0] == '\\' && s[1] == 'u';
    assert s[2..6] == h && s[6..] == rest;
    assert IsScalar(c as int);
  }

  lemma {:induction false} UnescapeFlatMap(v: string)
    requires forall i | 0 <= i < |v| :: v[i] as int < 0x10000
    ensures Unescape(FlatMap(LiteralChar, v)) == Some(v)
    decreases |v|
  {
    if v != [] {
      assert forall i | 0 <= i < |v[1..]| :: v[1..][i] == v[i + 1];
      UnescapeFlatMap(v[1..]);
      UnescapeStep(v[0], v[1..], FlatMap(LiteralChar, v[1..]));
      assert [v[0]] + v[1..] == v;
    }
  }

  lemma UnescapeStep(c: char, tail: string, written: string)
    requires c as int < 0x10000
    requires Unescape(written) == Some(tail)
    ensures Unescape(LiteralChar(c) + written) == Some([c] + tail)
  {
    UnescapeLiteralChar(c, written);
  }

  /** Reading the escapes of `literal`'s output once gives back its input,
      for text in the Basic Multilingual Plane. */
  lemma LiteralRoundTrip(v: string)
    requires forall i | 0 <= i < |v| :: v[i] as int < 0x10000
    ensures Unescape(Literal(v)) == Some(v)
  {
    LiteralByChar(v);
    UnescapeFlatMap(v);
  }

  // The U+1F600 example lemmas below take their text as a parameter fixed by a `requires`: with
  // the literal written into the `ensures`, the solver unfolds every
  // function over it at once, at many times the cost.

  /** Above U+FFFF `ntencode` writes five or six hex digits, more than the
      four-digit `\u` escape carries, so the round trip fails there. */
  lemma LiteralBeyondBmp(v: string)
    requires v == "\U{1F600}"
    ensures Literal(v) == "\\u1F600"
    ensures Unescape(Literal(v)) != Some(v)
  {
    EmojiLiteral(v);
    EmojiRead("\\u1F600");
  }

  lemma EmojiLiteral(v: string)
    requires v == "\U{1F600}"
    ensures Literal(v) == "\\u1F600"
  {
    assert v == [v[0]];
    LiteralNonAscii(v[0]);
    FormatExample();
  }

  /** The escape takes four digits and leaves the fifth as text. */
  lemma EmojiRead(s: string)
    requires s == "\\u1F600"
    ensures Unescape(s) == Some(['\U{1F60}', '0'])
  {
    assert s[0] == '\\' && s[1] == 'u' && s[2..6] == "1F60";
    ValueExample();
    assert IsScalar(0x1F60);
    ReadDigit();
    assert Unescape(s) == Prepend(0x1F60 as char, Some("0"));
    assert [0x1F60 as char] + "0" == ['\U{1F60}', '0'];
  }

  lemma ReadDigit()
    ensures Unescape("0") == Some("0")
  {
    assert "0"[0] == '0' && "0"[1..] == [];
    assert Unescape("0") == Prepend('0', Unescape([]));
    assert ['0'] + [] == "0";
  }

  lemma FormatExample()
    ensures Hex.Format04(0x1F600) == "1F600"
  {
    assert Hex.Format(0x1) == "1";
    assert Hex.Format(0x1F) == "1F";
    assert Hex.Format(0x1F6) == "1F6";
    assert Hex.Format(0x1F60) == "1F60";
    assert Hex.Format(0x1F600) == "1F600";
  }

  lemma ValueExample()
    ensures Hex.AllDigits("1F60") && Hex.Value("1F60") == 0x1F60
  {
    assert "1F60"[..3] == "1F6" && "1F6"[..2] == "1F" && "1F"[..1] == "1" && "1"[..0] == "";
  }

  /** The character a `%XX` code of `clean_uri` stands for, if any: the
      two hex digits read as a code point, accepted when that is one of the
      twelve characters `clean_uri` encodes. The replacement table is not
      consulted. */
  function CodeKey(code: string): (r: Option<char>)
    ensures r.Some? ==> IsCode(code) && r.value in UriReserved
    ensures r.Some? ==> Hex.AllDigits(code[1..]) && Hex.Value(code[1..]) == r.value as int
  {
    if IsCode(code) && (CodeValue(code) as char) in UriReserved then Some(CodeValue(code) as char)
    else None
  }

  /** Percent-decoding limited to the twelve codes `clean_uri` writes. */
  function PercentDecode(s: string): string
    decreases |s|
  {
    if s == [] then []
    else if |s| >= 3 && CodeKey(s[..3]).Some? then
      [CodeKey(s[..3]).value] + PercentDecode(s[3..])
    else [s[0]] + PercentDecode(s[1..])
  }

  /** Every replacement of `clean_uri` is read back as its own character. */
  lemma CodeKeyOfRules()
    ensures forall r | r in UriRules :: CodeKey(r.text) == Some(r.key)
  {
    UriKeysReserved();
    UriCodesMeanKeys();
    forall r | r in UriRules ensures CodeKey(r.text) == Some(r.key) {
      assert (CodeValue(r.text) as char) == r.key;
    }
  }

  /** Only a replacement text of `clean_uri` is read as a code, and it is
      read as the character it replaces. */
  lemma CodeKeyOnlyRules(t: string)
    requires CodeKey(t).Some?
    ensures Rule(CodeKey(t).value, t) in UriRules
  {
    var c := CodeKey(t).value;
    UriReservedCovered();
    var r :| r in UriRules && r.key == c;
    UriCodesMeanKeys();
    SameCode(r.text, t);
  }

  /** A reserved character becomes a code that is read back as it. */
  lemma ReservedDecode(c: char, rest: string)
    requires c in UriReserved
    ensures PercentDecode(Subst(UriRules, c) + rest) == [c] + PercentDecode(rest)
  {
    ReservedCode(c);
    var r :| r in UriRules && r.key == c && Subst(UriRules, c) == r.text;
    CodeKeyOfRules();
    var s := r.text + rest;
    assert s[..3] == r.text && s[3..] == rest;
  }

  /** Any other character but `%` is kept, and cannot start a code. */
  lemma PlainDecode(c: char, rest: string)
    requires c !in UriReserved && c != '%'
    ensures PercentDecode(Subst(UriRules, c) + rest) == [c] + PercentDecode(rest)
  {
    UriCharCases(c);
    var s := [c] + rest;
    assert s[0] == c && s[1..] == rest;
    if |s| >= 3 {
      assert s[..3][0] == c;
    }
  }

  lemma PercentDecodeChar(c: char, rest: string)
    requires c != '%'
    ensures PercentDecode(Subst(UriRules, c) + rest) == [c] + PercentDecode(rest)
  {
    if c in UriReserved {
      ReservedDecode(c, rest);
    } else {
      PlainDecode(c, rest);
    }
  }

  lemma {:induction false} PercentDecodeAll(s: string)
    requires '%' !in s
    ensures PercentDecode(SubstAll(UriRules, s)) == s
    decreases |s|
  {
    if s != [] {
      assert s[0] in s;
      assert forall c | c in s[1..] :: c in s;
      PercentDecodeAll(s[1..]);
      PercentDecodeChar(s[0], SubstAll(UriRules, s[1..]));
      assert [s[0]] + s[1..] == s;
    }
  }

  /** Without a `%` in the input, decoding the twelve codes undoes the
      replacements of `clean_uri`: no character is lost or confused. */
  lemma EscapeUriRoundTrip(s: string)
    requires '%' !in s
    ensures PercentDecode(EscapeUri(s)) == s
  {
    EscapeUriByChar(s);
    PercentDecodeAll(s);
  }

  /** Without `%` or `&amp;` in the input, decoding the twelve codes undoes
      all of `clean_uri`; a bare `&`, as in a query string, is kept. */
  lemma CleanUriRoundTrip(s: string)
    requires '%' !in s && !Contains(s, "&amp;")
    ensures PercentDecode(CleanUri(s)) == s
  {
    EscapeUriByChar(s);
    SubstAllNoEntity(s);
    ReplaceAbsent(EscapeUri(s), "&amp;", "&");
    EscapeUriRoundTrip(s);
  }

  /** `clean_uri` of a reserved character is read back as that character. */
  lemma CleanUriCharDecodes(c: char)
    requires c in UriReserved
    ensures CodeKey(CleanUri([c])) == Some(c)
  {
    ReservedEscaped(c);
    CodeKeyOfRules();
  }
}

=== FILE: encoding.dfy ===
/** The three escaping helpers of the serialiser: `ntencode` (ASCII-only
    text as in the N-Triples of the W3C RDF Test Cases, section 3),
    `literal` (the body of a quoted literal) and `clean_uri` (percent-encoding,
    as in section 2.1 of RFC 3986, of twelve characters it treats as invalid
    in a URI). Each is modelled step for step as the source chains its
    replacements; a per-character description of each is proved equal to it
    and carries the properties. */
module Encoding {
  import opened Strings
  import Hex

  predicate IsAscii(c: char) {
    c as int < 0x80
  }

  predicate AllAscii(s: string) {
    forall i | 0 <= i < |s| :: IsAscii(s[i])
  }

  /** One character under the ASCII codec with the `\u` fallback of
      `ntencode`: kept when it is ASCII, otherwise `\u` and the code point
      in upper-case hexadecimal, zero-padded to four digits. */
  function AsciiChar(c: char): string {
    if IsAscii(c) then [c] else "\\u" + Hex.Format04(c as int)
  }

  /** The second step of `ntencode`: text that the strict ASCII codec accepts
      is returned as it is; otherwise the text is rebuilt one character at
      a time. */
  function AsciiEncode(s: string): string {
    if AllAscii(s) then s else FlatMap(AsciiChar, s)
  }

  /** `ntencode`: newlines become `\n`, then non-ASCII characters are escaped. */
  function NtEncode(s: string): string {
    AsciiEncode(Replace(s, "\n", "\\n"))
  }

  /** `literal`: backslashes are doubled, then quotes are escaped, then the
      text goes through `ntencode`. */
  function Literal(s: string): string {
    NtEncode(Replace(Replace(s, "\\", "\\\\"), "\"", "\\\""))
  }

  /** The replacements on the first line of `clean_uri`, in order. */
  const UriRulesFirst: seq<Rule> := [
    Rule(' ', "%20"), Rule('"', "%22"), Rule('<', "%3C"), Rule('>', "%3E"),
    Rule('{', "%7B"), Rule('}', "%7D")]

  /** The replacements on its second line, in order. */
  const UriRulesSecond: seq<Rule> := [
    Rule('|', "%7C"), Rule('\\', "%5C"), Rule('^', "%5E"), Rule('~', "%7E"),
    Rule('[', "%5B"), Rule(']', "%5D")]

  /** The twelve replacements of `clean_uri`, in the order it applies them. */
  const UriRules: seq<Rule> := UriRulesFirst + UriRulesSecond

  /** The characters `clean_uri` percent-encodes. */
  const UriReserved: set<char> :=
    {' ', '"', '<', '>', '{', '}', '|', '\\', '^', '~', '[', ']'}

  /** The characters the replacement texts of `clean_uri` are made of. */
  predicate IsCodeChar(c: char) {
    c == '%' || Hex.IsDigit(c)
  }

  /** A percent code: `%` and two upper-case hex digits. */
  predicate IsCode(t: string) {
    |t| == 3 && t[0] == '%' && Hex.IsDigit(t[1]) && Hex.IsDigit(t[2])
  }

  /** The byte a percent code stands for: its two hex digits read as one
      number, as in section 2.1 of RFC 3986. */
  function CodeValue(t: string): (n: nat)
    requires IsCode(t)
    ensures n < 0x100
    ensures Hex.AllDigits(t[1..]) && Hex.Value(t[1..]) == n
  {
    Hex.TwoDigits(t[1..]);
    16 * Hex.DigitValue(t[1]) + Hex.DigitValue(t[2])
  }

  /** Two percent codes for the same byte are the same text. */
  lemma SameCode(a: string, b: string)
    requires IsCode(a) && IsCode(b) && CodeValue(a) == CodeValue(b)
    ensures a == b
  {
    Hex.DigitInjective(a[1], b[1]);
    Hex.DigitInjective(a[2], b[2]);
    assert a == [a[0], a[1], a[2]] && b == [b[0], b[1], b[2]];
  }

  /** The first two lines of `clean_uri`: the twelve replacements in turn. */
  function EscapeUri(s: string): string {
    ReplaceEach(s, UriRules)
  }

  /** `clean_uri`: the twelve replacements, then `&amp;` collapsed to `&`. */
  function CleanUri(s: string): string {
    Replace(EscapeUri(s), "&amp;", "&")
  }

  /** The table of `clean_uri`: a rule for each reserved character and for
      nothing else, each text a `%` and two hex digits, none of them reserved. */
  lemma UriKeysReserved()
    ensures forall r | r in UriRules :: r.key in UriReserved
  {
    assert forall r | r in UriRulesFirst :: r.key in UriReserved;
    assert forall r | r in UriRulesSecond :: r.key in UriReserved;
  }

  lemma UriTextsShape()
    ensures forall r | r in UriRules :: IsCode(r.text)
  {
    FirstShape();
    SecondShape();
  }

  /** Every replacement text of `clean_uri` is the percent-encoding of the
      character it replaces: its two hex digits are that character's code. */
  lemma UriCodesMeanKeys()
    ensures forall r | r in UriRules :: IsCode(r.text) && CodeValue(r.text) == r.key as int
  {
    FirstCodes();
    SecondCodes();
    forall r | r in UriRules ensures IsCode(r.text) && CodeValue(r.text) == r.key as int {
      if r in UriRulesFirst {
        var i :| 0 <= i < 6 && UriRulesFirst[i] == r;
      } else {
        var i :| 0 <= i < 6 && UriRulesSecond[i] == r;
      }
    }
  }

  lemma FirstCodes()
    ensures forall i | 0 <= i < 6 ::
      IsCode(UriRulesFirst[i].text) && CodeValue(UriRulesFirst[i].text) == UriRulesFirst[i].key as int
  {
  }

  lemma SecondCodes()
    ensures forall i | 0 <= i < 6 ::
      IsCode(UriRulesSecond[i].text) && CodeValue(UriRulesSecond[i].text) == UriRulesSecond[i].key as int
  {
  }

  lemma FirstShape()
    ensures forall r | r in UriRulesFirst :: IsCode(r.text)
  {
  }

  lemma SecondShape()
    ensures forall r | r in UriRulesSecond :: IsCode(r.text)
  {
  }

  lemma UriTextsPercent()
    ensures forall r | r in UriRules :: |r.text| == 3 && r.text[0] == '%'
    ensures forall r, c | r in UriRules && c in r.text :: IsCodeChar(c)
  {
    UriTextsShape();
    forall r | r in UriRules ensures forall c | c in r.text :: IsCodeChar(c) {
      CodeChars(r.text);
    }
  }

  lemma CodeChars(t: string)
    requires IsCode(t)
    ensures forall c | c in t :: IsCodeChar(c)
  {
    assert t == [t[0], t[1], t[2]];
  }

  lemma UriReservedCovered()
    ensures forall c | c in UriReserved :: exists r | r in UriRules :: r.key == c
  {
    forall c | c in UriReserved ensures exists r | r in UriRules :: r.key == c {
      if c in {' ', '"', '<', '>', '{', '}'} {
        assert exists r | r in UriRulesFirst :: r.key == c;
      } else {
        assert exists r | r in UriRulesSecond :: r.key == c;
      }
    }
  }

  lemma CodeCharsUnreserved()
    ensures forall c | IsCodeChar(c) :: c !in UriReserved
  {
  }

  // ---- `ntencode` character by character ----

  /** What `ntencode` makes of one character: a newline becomes `\n`, any
      other ASCII character (control characters included) is kept, and a
      non-ASCII character becomes `\u` and at least four hex digits. */
  function NtChar(c: char): string {
    if c == '\n' then "\\n" else AsciiChar(c)
  }

  /** The two branches of the ASCII step agree: both rebuild the text one
      character at a time. */
  lemma AsciiEncodeByChar(s: string)
    ensures AsciiEncode(s) == FlatMap(AsciiChar, s)
  {
    if AllAscii(s) {
      FlatMapKeeps(AsciiChar, s);
    }
  }

  /** ASCII text is its own ASCII encoding. */
  lemma AsciiKeeps(s: string)
    requires AllAscii(s)
    ensures FlatMap(AsciiChar, s) == s
  {
    FlatMapKeeps(AsciiChar, s);
  }

  /** A one-character rewrite followed by the ASCII step, as one map. */
  lemma {:induction false} AsciiAfterSubst(rules: seq<Rule>, g: char -> string, s: string)
    requires forall c :: FlatMap(AsciiChar, Subst(rules, c)) == g(c)
    ensures FlatMap(AsciiChar, SubstAll(rules, s)) == FlatMap(g, s)
    decreases |s|
  {
    if s != [] {
      FlatMapAppend(AsciiChar, Subst(rules, s[0]), SubstAll(rules, s[1..]));
      AsciiAfterSubst(rules, g, s[1..]);
    }
  }

  lemma AsciiOfOne(c: char)
    ensures FlatMap(AsciiChar, [c]) == AsciiChar(c)
  {
    assert [c][1..] == [];
  }

  /** `ntencode` is the concatenation of `NtChar` over its input. */
  lemma NtEncodeByChar(s: string)
    ensures NtEncode(s) == FlatMap(NtChar, s)
  {
    var nl := Rule('\n', "\\n");
    ReplaceCharIsSubst(s, nl);
    AsciiEncodeByChar(SubstAll([nl], s));
    forall c ensures FlatMap(AsciiChar, Subst([nl], c)) == NtChar(c) {
      assert [nl][1..] == [];
      if c == '\n' {
        AsciiKeeps("\\n");
      } else {
        AsciiOfOne(c);
      }
    }
    AsciiAfterSubst([nl], NtChar, s);
  }

  /** `ntencode` works character by character, so it distributes over
      concatenation. */
  lemma NtEncodeAppend(a: string, b: string)
    ensures NtEncode(a + b) == NtEncode(a) + NtEncode(b)
  {
    NtEncodeByChar(a + b);
    NtEncodeByChar(a);
    NtEncodeByChar(b);
    FlatMapAppend(NtChar, a, b);
  }

  /** ASCII and not a line feed. A carriage return satisfies it: neither
      `ntencode` nor `literal` escapes `\r` (see `LiteralRawCarriageReturn`). */
  predicate AsciiNoNewline(c: char) {
    IsAscii(c) && c != '\n'
  }

  lemma AsciiCharSafe(c: char)
    requires c != '\n'
    ensures forall d | d in AsciiChar(c) :: AsciiNoNewline(d)
  {
    if !IsAscii(c) {
      var h := Hex.Format04(c as int);
      assert forall i | 0 <= i < |h| :: Hex.IsDigit(h[i]);
      assert forall d | d in "\\u" + h :: d == '\\' || d == 'u' || d in h;
    }
  }

  /** The output of `ntencode` is ASCII and holds no newline. */
  lemma NtEncodeAscii(s: string)
    ensures forall d | d in NtEncode(s) :: AsciiNoNewline(d)
  {
    NtEncodeByChar(s);
    forall c | c in s ensures forall d | d in NtChar(c) :: AsciiNoNewline(d) {
      if c != '\n' {
        AsciiCharSafe(c);
      }
    }
    FlatMapChars(NtChar, s, AsciiNoNewline);
  }

  /** ASCII text without newlines passes through `ntencode` unchanged. */
  lemma NtEncodeKeeps(s: string)
    requires AllAscii(s) && '\n' !in s
    ensures NtEncode(s) == s
  {
    NtEncodeByChar(s);
    FlatMapKeeps(NtChar, s);
  }

  /** A non-ASCII character becomes `\u` followed by the upper-case hex of
      its code point, zero-padded to at least four digits (exactly four up
      to U+FFFF). */
  lemma NtEncodeNonAscii(c: char)
    requires !IsAscii(c)
    ensures NtEncode([c]) == "\\u" + Hex.Format04(c as int)
    ensures Hex.Value(NtEncode([c])[2..]) == c as int
    ensures |NtEncode([c])| >= 6
    ensures c as int < 0x10000 ==> |NtEncode([c])| == 6
  {
    NtEncodeByChar([c]);
    assert [c][1..] == [];
    var r := NtEncode([c]);
    assert r[2..] == Hex.Format04(c as int);
  }

  // ---- `literal` character by character ----

  /** The replacements `literal` and `ntencode` apply before the ASCII step,
      in order. */
  const LiteralRules: seq<Rule> := [Rule('\\', "\\\\"), Rule('"', "\\\""), Rule('\n', "\\n")]

  /** What `literal` makes of one character: a backslash is doubled, a quote
      gets a backslash, and the rest is as in `ntencode`. */
  function LiteralChar(c: char): string {
    if c == '\\' then "\\\\" else if c == '"' then "\\\"" else NtChar(c)
  }

  lemma LiteralRulesIndependent()
    ensures Independent(LiteralRules)
  {
    forall i, j, c | 0 <= i < j < |LiteralRules| && c in LiteralRules[i].text
      ensures c != LiteralRules[j].key
    {
      assert i == 0 || i == 1;
    }
  }

  /** `literal` is the concatenation of `LiteralChar` over its input. */
  lemma LiteralByChar(s: string)
    ensures Literal(s) == FlatMap(LiteralChar, s)
  {
    var r0, r1, r2 := LiteralRules[0], LiteralRules[1], LiteralRules[2];
    var t := Replace(Replace(Replace(s, "\\", "\\\\"), "\"", "\\\""), "\n", "\\n");
    assert LiteralRules[1..] == [r1, r2];
    assert [r1, r2][1..] == [r2];
    assert [r2][1..] == [];
    assert ReplaceEach(s, LiteralRules) == t;
    LiteralRulesIndependent();
    ReplaceEachIsSubstAll(s, LiteralRules);
    AsciiEncodeByChar(t);
    forall c ensures FlatMap(AsciiChar, Subst(LiteralRules, c)) == LiteralChar(c) {
      if c == '\\' {
        AsciiKeeps("\\\\");
      } else if c == '"' {
        AsciiKeeps("\\\"");
      } else if c == '\n' {
        AsciiKeeps("\\n");
      } else {
        AsciiOfOne(c);
      }
    }
    AsciiAfterSubst(LiteralRules, LiteralChar, s);
  }

  /** The output of `literal` is ASCII and holds no newline. */
  lemma LiteralAscii(s: string)
    ensures forall d | d in Literal(s) :: AsciiNoNewline(d)
  {
    LiteralByChar(s);
    forall c | c in s ensures forall d | d in LiteralChar(c) :: AsciiNoNewline(d) {
      if c != '\n' && c != '\\' && c != '"' {
        AsciiCharSafe(c);
      }
    }
    FlatMapChars(LiteralChar, s, AsciiNoNewline);
  }

  /** `t` reads as the body of a quoted string: a backslash always takes
      the character after it as its escape, and no quote stands on its own. */
  predicate Escaped(t: string)
    decreases |t|
  {
    if t == [] then true
    else if t[0] == '\\' then |t| >= 2 && Escaped(t[2..])
    else t[0] != '"' && Escaped(t[1..])
  }

  /** Text without backslashes and quotes is trivially escaped. */
  lemma {:induction false} PlainEscaped(t: string)
    requires forall i | 0 <= i < |t| :: t[i] != '\\' && t[i] != '"'
    ensures Escaped(t)
    decreases |t|
  {
    if t != [] {
      PlainEscaped(t[1..]);
    }
  }

  lemma {:induction false} EscapedAppend(a: string, b: string)
    requires Escaped(a) && Escaped(b)
    ensures Escaped(a + b)
    decreases |a|
  {
    if a == [] {
      assert a + b == b;
    } else if a[0] == '\\' {
      EscapedAppend(a[2..], b);
      assert (a + b)[2..] == a[2..] + b;
    } else {
      EscapedAppend(a[1..], b);
      assert (a + b)[1..] == a[1..] + b;
    }
  }

  /** Each character's encoding is a complete escape or a plain character. */
  lemma CharEscaped(c: char)
    ensures Escaped(LiteralChar(c))
  {
    var t := LiteralChar(c);
    if c == '\\' || c == '"' || c == '\n' {
      assert t[0] == '\\' && t[2..] == [];
    } else if IsAscii(c) {
      assert t == [c] && t[1..] == [];
    } else {
      var h := Hex.Format04(c as int);
      assert t == "\\u" + h && t[2..] == h;
      assert forall i | 0 <= i < |h| :: Hex.IsDigit(h[i]);
      PlainEscaped(h);
    }
  }

  lemma {:induction false} EscapedFlatMap(s: string)
    ensures Escaped(FlatMap(LiteralChar, s))
    decreases |s|
  {
    if s != [] {
      EscapedFlatMap(s[1..]);
      CharEscaped(s[0]);
      EscapedAppend(LiteralChar(s[0]), FlatMap(LiteralChar, s[1..]));
    }
  }

  /** The output of `literal` scans as a quoted string body: every backslash
      opens an escape, and every quote is the second half of a `\"` escape. */
  lemma LiteralQuotesEscaped(s: string)
    ensures Escaped(Literal(s))
  {
    LiteralByChar(s);
    EscapedFlatMap(s);
  }

  /** `literal` works character by character, so it distributes over
      concatenation. */
  lemma LiteralAppend(a: string, b: string)
    ensures Literal(a + b) == Literal(a) + Literal(b)
  {
    LiteralByChar(a + b);
    LiteralByChar(a);
    LiteralByChar(b);
    FlatMapAppend(LiteralChar, a, b);
  }

  /** A lone non-ASCII character is written as `\u` and its hex code. */
  lemma LiteralNonAscii(c: char)
    requires !IsAscii(c)
    ensures Literal([c]) == "\\u" + Hex.Format04(c as int)
  {
    LiteralByChar([c]);
    assert [c][1..] == [];
    assert LiteralChar(c) == AsciiChar(c);
  }

  /** Text with nothing to escape passes through `literal` unchanged. */
  lemma LiteralKeeps(s: string)
    requires AllAscii(s) && '\n' !in s && '\\' !in s && '"' !in s
    ensures Literal(s) == s
  {
    LiteralByChar(s);
    FlatMapKeeps(LiteralChar, s);
  }

  /** A carriage return is not escaped: `literal` writes it raw, although it
      ends a line in N-Triples just as `\n` does, and it writes no other. */
  lemma LiteralRawCarriageReturn(s: string)
    ensures '\r' in s <==> '\r' in Literal(s)
  {
    LiteralByChar(s);
    if '\r' in s {
      var i :| 0 <= i < |s| && s[i] == '\r';
      assert s == s[..i] + ([s[i]] + s[i + 1..]);
      FlatMapAppend(LiteralChar, s[..i], [s[i]] + s[i + 1..]);
      FlatMapAppend(LiteralChar, [s[i]], s[i + 1..]);
      assert FlatMap(LiteralChar, [s[i]]) == LiteralChar(s[i]) + FlatMap(LiteralChar, []);
    } else {
      forall c | c in s ensures forall d | d in LiteralChar(c) :: d != '\r' {
        NoCarriageReturn(c);
      }
      FlatMapChars(LiteralChar, s, d => d != '\r');
    }
  }

  lemma NoCarriageReturn(c: char)
    requires c != '\r'
    ensures forall d | d in LiteralChar(c) :: d != '\r'
  {
    if c != '\\' && c != '"' && c != '\n' {
      AsciiCharSafe(c);
    }
  }

  /** Backslashes are escaped before quotes: an input backslash-quote
      becomes four characters, not five. */
  lemma LiteralBackslashQuote()
    ensures Literal("\\\"") == "\\\\\\\""
  {
    LiteralByChar("\\\"");
    var s := "\\\"";
    assert s[1..] == "\"";
    assert s[1..][1..] == [];
  }

  // ---- `clean_uri` ----

  /** The twelve chained replacements rewrite each character on its own. */
  lemma EscapeUriByChar(s: string)
    ensures EscapeUri(s) == SubstAll(UriRules, s)
  {
    UriKeysReserved();
    UriTextsPercent();
    CodeCharsUnreserved();
    IndependentBySeparation(UriRules, UriReserved);
    ReplaceEachIsSubstAll(s, UriRules);
  }

  /** What `clean_uri`'s replacements make of one character: a reserved
      character becomes its `%XX` code, anything else (`%` included) is kept. */
  lemma UriCharCases(c: char)
    ensures c !in UriReserved ==> Subst(UriRules, c) == [c]
    ensures c in UriReserved ==>
      exists r | r in UriRules :: r.key == c && Subst(UriRules, c) == r.text
  {
    UriKeysReserved();
    UriReservedCovered();
    SubstCases(UriRules, c);
  }

  lemma {:induction false} EscapeUriSafe(s: string)
    ensures forall d | d in SubstAll(UriRules, s) :: d !in UriReserved
    decreases |s|
  {
    if s != [] {
      UriTextsPercent();
      CodeCharsUnreserved();
      UriCharCases(s[0]);
      EscapeUriSafe(s[1..]);
    }
  }

  /** The twelve replacements write no `&` of their own. */
  lemma {:induction false} EscapeUriNoAmpersand(s: string)
    requires '&' !in s
    ensures '&' !in SubstAll(UriRules, s)
    decreases |s|
  {
    if s != [] {
      assert s[0] in s;
      assert forall c | c in s[1..] :: c in s;
      SubstNoAmpersand(s[0]);
      EscapeUriNoAmpersand(s[1..]);
    }
  }

  lemma SubstNoAmpersand(c: char)
    requires c != '&'
    ensures '&' !in Subst(UriRules, c)
  {
    UriCharCases(c);
    if c in UriReserved {
      ReservedCode(c);
      CodeChars(Subst(UriRules, c));
    }
  }

  /** Collapsing `&amp;` adds no reserved character. */
  lemma CollapseSafe(e: string)
    requires forall d | d in e :: d !in UriReserved
    ensures forall d | d in Replace(e, "&amp;", "&") :: d !in UriReserved
  {
    ReplaceChars(e, "&amp;", "&");
  }

  /** `clean_uri` leaves none of the twelve reserved characters. */
  lemma CleanUriSafe(s: string)
    ensures forall d | d in CleanUri(s) :: d !in UriReserved
  {
    EscapeUriByChar(s);
    EscapeUriSafe(s);
    CollapseSafe(EscapeUri(s));
  }

  /** Text without reserved characters comes out of the twelve replacements
      unchanged. */
  lemma EscapeUriKeeps(s: string)
    requires forall c | c in s :: c !in UriReserved
    ensures EscapeUri(s) == s
  {
    UriKeysReserved();
    EscapeUriByChar(s);
    SubstAllUntouched(UriRules, s);
  }

  /** Text without `&` has nothing to collapse. */
  lemma NoAmpersand(s: string)
    requires '&' !in s
    ensures Replace(s, "&amp;", "&") == s
  {
    MissingFirstChar(s, "&amp;");
    ReplaceAbsent(s, "&amp;", "&");
  }

  /** The first character the replacements write for `t`: `%` for a reserved
      character, otherwise the character itself. */
  lemma SubstAllHead(t: string)
    requires t != []
    ensures SubstAll(UriRules, t) != []
    ensures SubstAll(UriRules, t)[0] == if t[0] in UriReserved then '%' else t[0]
  {
    UriCharCases(t[0]);
    if t[0] in UriReserved {
      ReservedCode(t[0]);
    }
  }

  /** A prefix of the replacements' output that holds no `%` and no reserved
      character was copied from the input as it is. */
  lemma {:induction false} SubstAllPrefix(p: string, t: string)
    requires forall i | 0 <= i < |p| :: p[i] != '%' && p[i] !in UriReserved
    ensures p <= SubstAll(UriRules, t) ==> p <= t
    decreases |t|
  {
    if p != [] && t != [] {
      var c := t[0];
      SubstAllHead(t);
      if p <= SubstAll(UriRules, t) {
        assert c !in UriReserved;
        UriCharCases(c);
        assert SubstAll(UriRules, t) == [c] + SubstAll(UriRules, t[1..]);
        SubstAllPrefix(p[1..], t[1..]);
        assert p == [c] + p[1..] && t == [c] + t[1..];
      }
    }
  }

  /** The replacements of `clean_uri` create no `&amp;`: they write no `&`,
      and they copy the letters after an `&` only from the input. */
  lemma {:induction false} SubstAllNoEntity(s: string)
    requires !Contains(s, "&amp;")
    ensures !Contains(SubstAll(UriRules, s), "&amp;")
    decreases |s|
  {
    if s != [] {
      SubstAllNoEntity(s[1..]);
      assert s == [s[0]] + s[1..];
      if s[0] in UriReserved {
        CodeNoEntity(s[0], SubstAll(UriRules, s[1..]));
      } else {
        CopiedNoEntity(s[0], s[1..]);
      }
    }
  }

  /** A percent code in front adds no `&amp;`. */
  lemma CodeNoEntity(c: char, rest: string)
    requires c in UriReserved && !Contains(rest, "&amp;")
    ensures !Contains(Subst(UriRules, c) + rest, "&amp;")
  {
    ReservedCode(c);
    CodeChars(Subst(UriRules, c));
    ContainsAfter(Subst(UriRules, c), rest, "&amp;");
  }

  /** A copied character in front adds an `&amp;` only if it was in the input. */
  lemma CopiedNoEntity(c: char, tail: string)
    requires c !in UriReserved && !Contains([c] + tail, "&amp;")
    requires !Contains(SubstAll(UriRules, tail), "&amp;")
    ensures !Contains(Subst(UriRules, c) + SubstAll(UriRules, tail), "&amp;")
  {
    UriCharCases(c);
    var rest := SubstAll(UriRules, tail);
    var t := [c] + rest;
    assert t[1..] == rest;
    SubstAllPrefix("amp;", tail);
    assert "&amp;" <= t ==> "amp;" <= rest;
    assert ([c] + tail)[1..] == tail;
    assert "amp;" <= tail && c == '&' ==> "&amp;" <= [c] + tail;
  }

  /** A URI with no reserved character and no `&amp;` is returned unchanged. */
  lemma CleanUriKeeps(s: string)
    requires forall c | c in s :: c !in UriReserved
    requires !Contains(s, "&amp;")
    ensures CleanUri(s) == s
  {
    EscapeUriKeeps(s);
    ReplaceAbsent(s, "&amp;", "&");
  }

  /** A second `clean_uri` changes nothing unless the first one left an
      `&amp;` behind. */
  lemma CleanUriIdempotent(s: string)
    requires !Contains(CleanUri(s), "&amp;")
    ensures CleanUri(CleanUri(s)) == CleanUri(s)
  {
    CleanUriSafe(s);
    CleanUriKeeps(CleanUri(s));
  }

  // The `&amp;` examples below take their text as a parameter fixed by a
  // `requires`: with the literal written into the `ensures`, the solver
  // unfolds every function over it at once, at many times the cost.
  lemma CollapseTwice(s: string, once: string)
    requires s == "&amp;amp;" && once == "&amp;"
    ensures Replace(s, "&amp;", "&") == once
    ensures Replace(once, "&amp;", "&") == "&"
  {
    assert "&amp;" <= s && s[5..] == "amp;";
    MissingFirstChar("amp;", "&amp;");
    ReplaceAbsent("amp;", "&amp;", "&");
    assert "&amp;" <= once && once[5..] == [];
  }

  /** `&amp;` is collapsed in one left-to-right pass, so `clean_uri` is not
      idempotent: a second call collapses again. */
  lemma CleanUriOnePass(s: string, once: string)
    requires s == "&amp;amp;" && once == "&amp;"
    ensures CleanUri(s) == once
    ensures CleanUri(once) == "&"
  {
    UriSafeExamples();
    EscapeUriKeeps(s);
    EscapeUriKeeps(once);
    CollapseTwice(s, once);
  }

  lemma UriSafeExamples()
    ensures forall c | c in "&amp;amp;" :: c !in UriReserved
    ensures forall c | c in "&amp;" :: c !in UriReserved
  {
  }

  /** Text made of `%` and hex digits only, such as a percent code, comes
      out of `clean_uri` unchanged. */
  lemma CodeKept(t: string)
    requires forall c | c in t :: IsCodeChar(c)
    ensures CleanUri(t) == t
  {
    CodeCharsUnreserved();
    EscapeUriKeeps(t);
    NoAmpersand(t);
  }

  /** A reserved character becomes the percent code of its rule. */
  lemma ReservedEscaped(c: char)
    requires c in UriReserved
    ensures IsCode(CleanUri([c]))
    ensures exists r | r in UriRules :: r.key == c && CleanUri([c]) == r.text
    ensures Hex.AllDigits(CleanUri([c])[1..]) && Hex.Value(CleanUri([c])[1..]) == c as int
  {
    ReservedCode(c);
    CleanOne(c);
    UriCodesMeanKeys();
  }

  lemma ReservedCode(c: char)
    requires c in UriReserved
    ensures IsCode(Subst(UriRules, c))
    ensures exists r | r in UriRules :: r.key == c && Subst(UriRules, c) == r.text
  {
    UriCharCases(c);
    UriTextsShape();
  }

  /** A character rewritten into a percent code has nothing to collapse. */
  lemma CleanOne(c: char)
    requires IsCode(Subst(UriRules, c))
    ensures CleanUri([c]) == Subst(UriRules, c)
  {
    var t := Subst(UriRules, c);
    EscapeOne(c);
    assert '&' !in t;
    NoAmpersand(t);
  }

  lemma EscapeOne(c: char)
    ensures EscapeUri([c]) == Subst(UriRules, c)
  {
    EscapeUriByChar([c]);
    assert [c][1..] == [];
  }

  /** `%` is never escaped, so a reserved character and the percent code it
      becomes clean to the same text: the code. */
  lemma CleanUriPercentKept(c: char)
    requires c in UriReserved
    ensures |CleanUri([c])| == 3 && CleanUri([c])[0] == '%'
    ensures CleanUri(CleanUri([c])) == CleanUri([c])
  {
    ReservedEscaped(c);
    CodeChars(CleanUri([c]));
    CodeKept(CleanUri([c]));
  }
}

=== FILE: hex.dfy ===
/** Upper-case hexadecimal numerals, as Python's `'%X'` and `'%04X'` format
    them, and their value. */
module Hex {

  predicate IsDigit(c: char) {
    '0' <= c <= '9' || 'A' <= c <= 'F'
  }

  predicate AllDigits(s: string) {
    forall i | 0 <= i < |s| :: IsDigit(s[i])
  }

  function DigitValue(c: char): nat
    requires IsDigit(c)
  {
    if c <= '9' then c as int - '0' as int else c as int - 'A' as int + 10
  }

  /** The upper-case digit for `d`. */
  function Digit(d: nat): (c: char)
    requires d < 16
    ensures IsDigit(c) && DigitValue(c) == d
  {
    if d < 10 then ('0' as int + d) as char else ('A' as int + d - 10) as char
  }

  /** The number a numeral denotes, most significant digit first. */
  function Value(s: string): nat
    requires AllDigits(s)
    decreases |s|
  {
    if s == [] then 0 else Value(s[..|s| - 1]) * 16 + DigitValue(s[|s| - 1])
  }

  /** A two-digit numeral is its high digit times sixteen plus its low digit. */
  lemma TwoDigits(t: string)
    requires |t| == 2 && IsDigit(t[0]) && IsDigit(t[1])
    ensures AllDigits(t) && Value(t) == 16 * DigitValue(t[0]) + DigitValue(t[1])
  {
    var h := t[..1];
    assert h[..0] == [] && h[0] == t[0];
    assert Value(h) == DigitValue(t[0]);
    assert t[..|t| - 1] == h;
  }

  /** Different digits have different values. */
  lemma DigitInjective(a: char, b: char)
    requires IsDigit(a) && IsDigit(b) && DigitValue(a) == DigitValue(b)
    ensures a == b
  {
  }

  /** `'%X' % n`: the numeral for `n`, with no leading zero, and at most
      four digits below 0x10000. */
  function Format(n: nat): (r: string)
    ensures AllDigits(r) && Value(r) == n
    ensures |r| >= 1 && (n > 0 ==> r[0] != '0')
    ensures n < 0x10 ==> |r| == 1
    ensures n < 0x100 ==> |r| <= 2
    ensures n < 0x1000 ==> |r| <= 3
    ensures n < 0x10000 ==> |r| <= 4
    ensures n < 0x100000 ==> |r| <= 5
    ensures n < 0x1000000 ==> |r| <= 6
    ensures n >= 0x10 ==> |r| >= 2
    ensures n >= 0x100 ==> |r| >= 3
    ensures n >= 0x1000 ==> |r| >= 4
    ensures n >= 0x10000 ==> |r| >= 5
    ensures n >= 0x100000 ==> |r| >= 6
    decreases n
  {
    if n < 16 then [Digit(n)]
    else
      var r := Format(n / 16) + [Digit(n % 16)];
      assert r[..|r| - 1] == Format(n / 16);
      r
  }

  /** `'%04X' % n`: the numeral for `n`, padded on the left with zeros to at
      least four digits; exactly four below 0x10000, five up to 0xFFFFF, six
      up to 0xFFFFFF, and no padding beyond four digits. */
  function Format04(n: nat): (r: string)
    ensures AllDigits(r) && Value(r) == n
    ensures |r| >= 4
    ensures n < 0x10000 ==> |r| == 4
    ensures 0x10000 <= n < 0x100000 ==> |r| == 5
    ensures 0x100000 <= n < 0x1000000 ==> |r| == 6
    ensures |r| > 4 ==> r[0] != '0'
  {
    var h := Format(n);
    if |h| >= 4 then h
    else
      var pad := seq(4 - |h|, _ => '0');
      LeadingZeros(pad, h);
      pad + h
  }

  /** Leading zeros do not change a numeral's value. */
  lemma {:induction false} LeadingZeros(z: string, h: string)
    requires forall i | 0 <= i < |z| :: z[i] == '0'
    requires AllDigits(h)
    ensures AllDigits(z + h) && Value(z + h) == Value(h)
    decreases |h|
  {
    if h == [] {
      assert z + h == z;
      AllZeros(z);
    } else {
      var zh := z + h;
      assert zh[..|zh| - 1] == z + h[..|h| - 1];
      LeadingZeros(z, h[..|h| - 1]);
    }
  }

  lemma {:induction false} AllZeros(z: string)
    requires forall i | 0 <= i < |z| :: z[i] == '0'
    ensures AllDigits(z) && Value(z) == 0
    decreases |z|
  {
    if z != [] {
      AllZeros(z[..|z| - 1]);
    }
  }
}

=== FILE: lines.dfy ===
/** Whole statement lines for ordinary inputs: plain IRIs and plain values
    pass through unchanged, and the usual shapes of a call give the expected
    lines. */
module Lines {
  import opened Results
  import opened Strings
  import Hex
  import Namespaces
  import Encoding
  import Triples

  /** A literal object of printable ASCII text with no quote, backslash or
      newline is quoted verbatim and followed by its suffix. */
  lemma PlainValue(o: string, tag: string)
    requires !Triples.IsIriObject(o, tag) && !("_:" <= o)
    requires Encoding.AllAscii(o) && '\n' !in o && '\\' !in o && '"' !in o
    ensures Triples.ObjectTerm(o, tag) == "\"" + o + "\"" + Triples.LiteralSuffix(tag)
  {
    MissingFirstChar(o, "\"");
    ReplaceAbsent(o, "\"", "\\\"");
    Encoding.LiteralKeeps(o);
  }

  /** A statement of two plain `http` IRIs and a plain value with no tag
      is the three of them, the IRIs in angle brackets and the value in
      quotes, whatever the table holds. */
  lemma PlainStatement(ns: Namespaces.Manager, s: string, p: string, o: string)
    requires "http" <= s && !Contains(s, "&amp;") && forall c | c in s :: c !in Encoding.UriReserved
    requires "http" <= p
    requires !("http" <= o) && !("_:" <= o)
    requires Encoding.AllAscii(o) && '\n' !in o && '\\' !in o && '"' !in o
    ensures Triples.Triple(ns, s, p, o, "") == Ok("<" + s + "> <" + p + "> \"" + o + "\" .\n")
  {
    Encoding.CleanUriKeeps(s);
    Triples.IriPredicateUncleaned(ns, p);
    PlainValue(o, "");
    Assemble(s, p, o);
  }

  lemma Assemble(s: string, p: string, o: string)
    ensures ("<" + s + ">") + " " + ("<" + p + ">") + " " + ("\"" + o + "\"" + "") + " .\n"
      == "<" + s + "> <" + p + "> \"" + o + "\" .\n"
  {
  }

  /** `foaf:` followed by a local name expands through the default table. */
  lemma FoafPredicate(local: string)
    requires ':' !in local
    ensures Triples.PredicateTerm(Namespaces.Defaults(), "foaf:" + local)
      == Ok("<" + "http://xmlns.com/foaf/0.1/" + local + ">")
  {
    assert "foaf:" + local == "foaf" + ":" + local;
    assert ("foaf:" + local)[0] == 'f';
    Triples.PrefixedPredicate(Namespaces.Defaults(), "foaf", local);
    Namespaces.DefaultFoaf();
  }

  // The example lemmas from here on take their text as a parameter fixed by a `requires`: with
  // the literal written into the `ensures`, the solver unfolds every
  // function over it at once, at many times the cost.

  /** An unknown prefix raises `KeyError` naming the prefix. */
  lemma UnknownPrefix(p: string)
    requires p == "xyz:foo"
    ensures Triples.PredicateTerm(Namespaces.Defaults(), p) == Err(KeyError("xyz"))
  {
    assert p == "xyz" + ":" + "foo" && p[0] == 'x';
    assert "xyz" !in Namespaces.DefaultPrefixes;
    Triples.PrefixedPredicate(Namespaces.Defaults(), "xyz", "foo");
  }

  /** An `xsd:` datatype cannot be written as a prefixed predicate, since the
      default table has no `xsd` entry. */
  lemma XsdPredicate(p: string)
    requires p == "xsd:integer"
    ensures Triples.PredicateTerm(Namespaces.Defaults(), p) == Err(KeyError("xsd"))
  {
    assert p == "xsd" + ":" + "integer" && p[0] == 'x';
    Namespaces.DefaultNoXsd();
    Triples.PrefixedPredicate(Namespaces.Defaults(), "xsd", "integer");
  }

  lemma HexE9()
    ensures Hex.Format04(0xE9) == "00E9"
  {
    assert Hex.Format(0xE) == "E";
    assert Hex.Format(0xE9) == "E9";
  }

  /** `Café` with the language tag `en` is written as
      `"Caf\u00E9"@en`: the `é` becomes a four-digit escape. */
  lemma CafeObject(o: string, t: string)
    requires o == "Caf\U{E9}" && t == "en"
    ensures Triples.ObjectTerm(o, t) == "\"Caf\\u00E9\"@en"
  {
    assert o[0] == 'C' && t[0] == 'e';
    CafeLiteral(o);
    QuotelessObject(o, t, "Caf\\u00E9");
    EnSuffix(t);
  }

  /** A literal object with no quote in it is `literal` of it, quoted. */
  lemma QuotelessObject(o: string, tag: string, body: string)
    requires !Triples.IsIriObject(o, tag) && !("_:" <= o) && '"' !in o
    requires Encoding.Literal(o) == body
    ensures Triples.ObjectTerm(o, tag) == "\"" + body + "\"" + Triples.LiteralSuffix(tag)
  {
    MissingFirstChar(o, "\"");
    ReplaceAbsent(o, "\"", "\\\"");
  }

  lemma EnSuffix(t: string)
    requires t == "en"
    ensures Triples.LiteralSuffix(t) == "@en"
  {
    assert t[0] == 'e' && IsAlpha(t);
  }

  lemma CafeLiteral(o: string)
    requires o == "Caf\U{E9}"
    ensures Encoding.Literal(o) == "Caf\\u00E9"
  {
    var a, e := "Caf", "\U{E9}";
    assert o == a + e;
    Encoding.LiteralKeeps(a);
    LiteralE9(e);
    LiteralJoin(a, e, "Caf", "\\u00E9");
    CafeGlue();
  }

  lemma LiteralJoin(a: string, b: string, x: string, y: string)
    requires Encoding.Literal(a) == x && Encoding.Literal(b) == y
    ensures Encoding.Literal(a + b) == x + y
  {
    Encoding.LiteralAppend(a, b);
  }

  lemma CafeGlue()
    ensures "Caf" + "\\u00E9" == "Caf\\u00E9"
  {
  }

  lemma LiteralE9(e: string)
    requires e == "\U{E9}"
    ensures Encoding.Literal(e) == "\\u00E9"
  {
    assert e == [e[0]];
    Encoding.LiteralNonAscii(e[0]);
    HexE9();
  }
}

=== FILE: namespaces.dfy ===
/** `NamespaceManagerClass`: the table from a namespace prefix to the base
    IRI it stands for. The module-level singleton of the source becomes a
    value that is passed to the serialiser. */
module Namespaces {
  import opened Results

  datatype Manager = Manager(namespaces: map<string, string>)

  /** The nine prefixes a fresh manager knows. */
  const DefaultPrefixes: set<string> :=
    {"rdf", "rdfs", "owl", "dc", "dct", "ov", "foaf", "geo", "skos"}

  /** A fresh manager. */
  function Defaults(): (m: Manager)
    ensures m.namespaces.Keys == DefaultPrefixes
  {
    Manager(map[
      "rdf" := "http://www.w3.org/1999/02/22-rdf-syntax-ns#",
      "rdfs" := "http://www.w3.org/2000/01/rdf-schema#",
      "owl" := "http://www.w3.org/2002/07/owl#",
      "dc" := "http://purl.org/dc/elements/1.1/",
      "dct" := "http://purl.org/dc/terms/",
      "ov" := "http://open.vocab.org/terms/",
      "foaf" := "http://xmlns.com/foaf/0.1/",
      "geo" := "http://www.w3.org/2003/01/geo/wgs84_pos#",
      "skos" := "http://www.w3.org/2004/02/skos/core#"
    ])
  }

  /** `get(name)`: the base IRI bound to `name`; a missing name raises
      `KeyError`. */
  function Get(m: Manager, name: string): (r: Result<string>)
    ensures r.Ok? <==> name in m.namespaces
    ensures r.Ok? ==> r.value == m.namespaces[name]
    ensures r.Err? ==> r.error == KeyError(name)
  {
    if name in m.namespaces then Ok(m.namespaces[name]) else Err(KeyError(name))
  }

  /** `add(name, uri)`: binds `name` to `uri`, replacing any earlier binding;
      every other name keeps its binding. */
  function Add(m: Manager, name: string, uri: string): (r: Manager)
    ensures r.namespaces.Keys == m.namespaces.Keys + {name}
    ensures Get(r, name) == Ok(uri)
    ensures forall k | k != name :: Get(r, k) == Get(m, k)
  {
    Manager(m.namespaces[name := uri])
  }

  /** A fresh manager holds exactly nine distinct prefixes. */
  lemma DefaultCount()
    ensures |Defaults().namespaces| == 9
  {
    assert Defaults().namespaces.Keys == DefaultPrefixes;
    PrefixCount();
  }

  lemma PrefixCount()
    ensures |DefaultPrefixes| == 9
  {
  }

  /** A fresh manager has no `xsd` prefix, so looking it up raises. */
  lemma DefaultNoXsd()
    ensures Get(Defaults(), "xsd") == Err(KeyError("xsd"))
  {
  }

  lemma DefaultFoaf()
    ensures Get(Defaults(), "foaf") == Ok("http://xmlns.com/foaf/0.1/")
  {
  }

  /** The last `add` of a name wins. */
  lemma AddTwice(m: Manager, name: string, u1: string, u2: string)
    ensures Add(Add(m, name, u1), name, u2) == Add(m, name, u2)
  {
  }
}

=== FILE: results.dfy ===
/** Outcomes of the serialiser's operations: the two Python exceptions that
    `triple` can raise, and the result and option types used in place of
    raising them. */
module Results {

  /** The exceptions raised on the paths the model covers. */
  datatype Error =
    | KeyError(key: string)  // a prefix that is not in the namespace table
    | ValueError             // a predicate that splits into more than two parts

  /** The value of a Python call that either returns or raises. */
  datatype Result<T> = Ok(value: T) | Err(error: Error)

  /** A value that may be absent; the decoders return `None` on malformed text. */
  datatype Option<T> = None | Some(value: T)
}

=== FILE: strings.dfy ===
/** The Python string operations the serialiser is built from, as functions
    on `seq<char>`: `str.replace`, substring membership, `str.split` on one
    character and its inverse `str.join`, `str.isalpha`, and a chain of
    one-character replacements described by a table of rules. */
module Strings {

  /** `s.replace(pat, rep)`: occurrences of `pat` are found from left to
      right, never overlapping, and each is replaced by `rep`. */
  function Replace(s: string, pat: string, rep: string): string
    requires |pat| > 0
    decreases |s|
  {
    if s == [] then []
    else if pat <= s then rep + Replace(s[|pat|..], pat, rep)
    else [s[0]] + Replace(s[1..], pat, rep)
  }

  /** `pat in s`: `pat` occurs in `s` as a contiguous block. */
  predicate Contains(s: string, pat: string)
    decreases |s|
  {
    pat <= s || (s != [] && Contains(s[1..], pat))
  }

  /** Replacing a pattern that does not occur changes nothing. */
  lemma {:induction false} ReplaceAbsent(s: string, pat: string, rep: string)
    requires |pat| > 0
    requires !Contains(s, pat)
    ensures Replace(s, pat, rep) == s
    decreases |s|
  {
    if s != [] {
      ReplaceAbsent(s[1..], pat, rep);
    }
  }

  /** Every character of a replacement's result comes from the input or from
      the replacement text. */
  lemma {:induction false} ReplaceChars(s: string, pat: string, rep: string)
    requires |pat| > 0
    ensures forall c | c in Replace(s, pat, rep) :: c in s || c in rep
    decreases |s|
  {
    if s == [] {
    } else if pat <= s {
      ReplaceChars(s[|pat|..], pat, rep);
      assert forall c | c in s[|pat|..] :: c in s;
    } else {
      ReplaceChars(s[1..], pat, rep);
      assert forall c | c in s[1..] :: c in s;
    }
  }

  /** Text none of whose characters starts the pattern adds no occurrence in
      front of text without one. */
  lemma {:induction false} ContainsAfter(x: string, y: string, pat: string)
    requires |pat| > 0 && pat[0] !in x && !Contains(y, pat)
    ensures !Contains(x + y, pat)
    decreases |x|
  {
    if x == [] {
      assert x + y == y;
    } else {
      assert x[0] in x;
      assert forall c | c in x[1..] :: c in x;
      assert (x + y)[1..] == x[1..] + y;
      ContainsAfter(x[1..], y, pat);
    }
  }

  /** A pattern whose first character is missing from `s` does not occur in it. */
  lemma {:induction false} MissingFirstChar(s: string, pat: string)
    requires |pat| > 0 && pat[0] !in s
    ensures !Contains(s, pat)
    decreases |s|
  {
    if s != [] {
      assert s[0] in s;
      assert forall c | c in s[1..] :: c in s;
      MissingFirstChar(s[1..], pat);
    }
  }

  /** `sep.join(parts)`. */
  function Join(parts: seq<string>, sep: char): string
    requires |parts| > 0
    decreases |parts|
  {
    if |parts| == 1 then parts[0] else parts[0] + [sep] + Join(parts[1..], sep)
  }

  /** The number of occurrences of `c` in `s`: `s.count(c)`. */
  function Count(s: string, c: char): nat
    decreases |s|
  {
    if s == [] then 0 else (if s[0] == c then 1 else 0) + Count(s[1..], c)
  }

  lemma {:induction false} CountAppend(a: string, b: string, c: char)
    ensures Count(a + b, c) == Count(a, c) + Count(b, c)
    decreases |a|
  {
    if a == [] {
      assert a + b == b;
    } else {
      CountAppend(a[1..], b, c);
      assert (a + b)[0] == a[0] && (a + b)[1..] == a[1..] + b;
    }
  }

  lemma {:induction false} CountAbsent(s: string, c: char)
    ensures c !in s <==> Count(s, c) == 0
    decreases |s|
  {
    if s != [] {
      CountAbsent(s[1..], c);
      assert s == [s[0]] + s[1..];
    }
  }

  /** `s.split(sep)` for a one-character separator: one more part than there
      are separators, no part holds the separator, and joining the parts
      gives `s` back. */
  function Split(s: string, sep: char): (parts: seq<string>)
    ensures |parts| == Count(s, sep) + 1
    ensures forall i | 0 <= i < |parts| :: sep !in parts[i]
    ensures Join(parts, sep) == s
    decreases |s|
  {
    if s == [] then [[]]
    else
      var rest := Split(s[1..], sep);
      if s[0] == sep then
        JoinCons([], rest, sep);
        [[]] + rest
      else
        JoinExtend(s[0], rest, sep);
        [[s[0]] + rest[0]] + rest[1..]
  }

  lemma JoinCons(p: string, rest: seq<string>, sep: char)
    requires |rest| > 0
    ensures Join([p] + rest, sep) == p + [sep] + Join(rest, sep)
  {
    assert ([p] + rest)[1..] == rest;
  }

  lemma JoinExtend(c: char, rest: seq<string>, sep: char)
    requires |rest| > 0
    ensures Join([[c] + rest[0]] + rest[1..], sep) == [c] + Join(rest, sep)
  {
    if |rest| > 1 {
      JoinCons([c] + rest[0], rest[1..], sep);
      JoinCons(rest[0], rest[1..], sep);
      assert rest == [rest[0]] + rest[1..];
    }
  }

  /** A text without the separator splits into itself. */
  lemma SplitWithoutSeparator(s: string, sep: char)
    requires sep !in s
    ensures Split(s, sep) == [s]
  {
    CountAbsent(s, sep);
  }

  /** A text with exactly one separator splits into the parts around it. */
  lemma {:induction false} SplitOnce(x: string, y: string, sep: char)
    requires sep !in x && sep !in y
    ensures Split(x + [sep] + y, sep) == [x, y]
    decreases |x|
  {
    if x == [] {
      SplitLeadingSeparator(y, sep);
      assert x + [sep] + y == [sep] + y;
    } else {
      assert x[0] in x;
      assert forall c | c in x[1..] :: c in x;
      SplitOnce(x[1..], y, sep);
      SplitCons(x, y, sep);
    }
  }

  lemma SplitLeadingSeparator(y: string, sep: char)
    requires sep !in y
    ensures Split([sep] + y, sep) == [[], y]
  {
    assert ([sep] + y)[1..] == y;
    SplitWithoutSeparator(y, sep);
  }

  lemma SplitCons(x: string, y: string, sep: char)
    requires x != [] && x[0] != sep
    requires Split(x[1..] + [sep] + y, sep) == [x[1..], y]
    ensures Split(x + [sep] + y, sep) == [x, y]
  {
    var s := x + [sep] + y;
    assert s[0] == x[0] && s[1..] == x[1..] + [sep] + y;
    SplitStep(s, sep);
    assert [x[0]] + x[1..] == x;
  }

  /** A first character other than the separator joins the first part. */
  lemma SplitStep(s: string, sep: char)
    requires s != [] && s[0] != sep
    ensures Split(s, sep) == [[s[0]] + Split(s[1..], sep)[0]] + Split(s[1..], sep)[1..]
  {
  }

  predicate IsAsciiLetter(c: char) {
    'a' <= c <= 'z' || 'A' <= c <= 'Z'
  }

  /** `s.isalpha()` with letters limited to ASCII: false on the empty text. */
  predicate IsAlpha(s: string) {
    |s| > 0 && forall i | 0 <= i < |s| :: IsAsciiLetter(s[i])
  }

  /** The concatenation of `f(c)` over the characters `c` of `s`. */
  function FlatMap(f: char -> string, s: string): string
    decreases |s|
  {
    if s == [] then [] else f(s[0]) + FlatMap(f, s[1..])
  }

  lemma {:induction false} FlatMapAppend(f: char -> string, a: string, b: string)
    ensures FlatMap(f, a + b) == FlatMap(f, a) + FlatMap(f, b)
    decreases |a|
  {
    if a != [] {
      assert (a + b)[0] == a[0];
      assert (a + b)[1..] == a[1..] + b;
      FlatMapAppend(f, a[1..], b);
    } else {
      assert a + b == b;
    }
  }

  /** A map that keeps each character of `s` keeps `s`. */
  lemma {:induction false} FlatMapKeeps(f: char -> string, s: string)
    requires forall i | 0 <= i < |s| :: f(s[i]) == [s[i]]
    ensures FlatMap(f, s) == s
    decreases |s|
  {
    if s != [] {
      FlatMapKeeps(f, s[1..]);
    }
  }

  /** Each character of `FlatMap(f, s)` comes from `f` of some character of `s`. */
  lemma {:induction false} FlatMapChars(f: char -> string, s: string, P: char -> bool)
    requires forall c | c in s :: forall d | d in f(c) :: P(d)
    ensures forall d | d in FlatMap(f, s) :: P(d)
    decreases |s|
  {
    if s != [] {
      assert s[0] in s;
      assert forall c | c in s[1..] :: c in s;
      FlatMapChars(f, s[1..], P);
    }
  }

  /** One entry of a chain of one-character replacements: every `key`
      becomes `text`. */
  datatype Rule = Rule(key: char, text: string)

  /** `s.replace(k1, t1).replace(k2, t2)...` for the rules in order. */
  function ReplaceEach(s: string, rules: seq<Rule>): string
    decreases |rules|
  {
    if rules == [] then s
    else ReplaceEach(Replace(s, [rules[0].key], rules[0].text), rules[1..])
  }

  /** What one character becomes when it is rewritten once: the text of the
      first rule for it, or the character itself. */
  function Subst(rules: seq<Rule>, c: char): string
    decreases |rules|
  {
    if rules == [] then [c]
    else if rules[0].key == c then rules[0].text
    else Subst(rules[1..], c)
  }

  /** Every character of `s` rewritten once by `Subst`. */
  function SubstAll(rules: seq<Rule>, s: string): string
    decreases |s|
  {
    if s == [] then [] else Subst(rules, s[0]) + SubstAll(rules, s[1..])
  }

  /** No rule has `c` as its key. */
  ghost predicate Untouched(rules: seq<Rule>, c: char) {
    forall r | r in rules :: r.key != c
  }

  /** No rule's text holds the key of a rule that comes after it, so a later
      replacement never rewrites what an earlier one inserted. */
  ghost predicate Independent(rules: seq<Rule>) {
    forall i, j, c | 0 <= i < j < |rules| && c in rules[i].text :: c != rules[j].key
  }

  lemma {:induction false} SubstAllAppend(rules: seq<Rule>, a: string, b: string)
    ensures SubstAll(rules, a + b) == SubstAll(rules, a) + SubstAll(rules, b)
    decreases |a|
  {
    if a != [] {
      assert (a + b)[0] == a[0];
      assert (a + b)[1..] == a[1..] + b;
      SubstAllAppend(rules, a[1..], b);
    } else {
      assert a + b == b;
    }
  }

  lemma {:induction false} SubstUntouched(rules: seq<Rule>, c: char)
    requires Untouched(rules, c)
    ensures Subst(rules, c) == [c]
    decreases |rules|
  {
    if rules != [] {
      assert rules[0] in rules;
      assert forall r | r in rules[1..] :: r in rules;
      SubstUntouched(rules[1..], c);
    }
  }

  /** A character is either untouched, or becomes the text of a rule for it. */
  lemma {:induction false} SubstCases(rules: seq<Rule>, c: char)
    ensures || (Untouched(rules, c) && Subst(rules, c) == [c])
            || (exists r | r in rules :: r.key == c && Subst(rules, c) == r.text)
    decreases |rules|
  {
    if rules != [] {
      assert rules[0] in rules;
      if rules[0].key != c {
        SubstCases(rules[1..], c);
        assert forall r | r in rules[1..] :: r in rules;
        assert forall r | r in rules :: r == rules[0] || r in rules[1..];
      }
    }
  }

  lemma {:induction false} SubstAllUntouched(rules: seq<Rule>, s: string)
    requires forall c | c in s :: Untouched(rules, c)
    ensures SubstAll(rules, s) == s
    decreases |s|
  {
    if s != [] {
      assert s[0] in s;
      SubstUntouched(rules, s[0]);
      assert forall c | c in s[1..] :: c in s;
      SubstAllUntouched(rules, s[1..]);
    }
  }

  /** Replacing one character is rewriting it wherever it stands. */
  lemma {:induction false} ReplaceCharIsSubst(s: string, r: Rule)
    ensures Replace(s, [r.key], r.text) == SubstAll([r], s)
    decreases |s|
  {
    if s != [] {
      assert [r.key] <= s <==> s[0] == r.key;
      assert [r][1..] == [];
      assert Subst([r], s[0]) == if r.key == s[0] then r.text else [s[0]];
      ReplaceCharIsSubst(s[1..], r);
    }
  }

  /** Rewriting with `[r]` and then with `rest` is rewriting with `[r] + rest`,
      provided `rest` leaves the text of `r` alone. */
  lemma {:induction false} SubstAllCompose(r: Rule, rest: seq<Rule>, s: string)
    requires forall c | c in r.text :: Untouched(rest, c)
    ensures SubstAll(rest, SubstAll([r], s)) == SubstAll([r] + rest, s)
    decreases |s|
  {
    if s != [] {
      var c := s[0];
      SubstAllAppend(rest, Subst([r], c), SubstAll([r], s[1..]));
      SubstAllCompose(r, rest, s[1..]);
      assert ([r] + rest)[1..] == rest;
      if r.key == c {
        SubstAllUntouched(rest, r.text);
      } else {
        assert [r][1..] == [];
        assert Subst([r], c) == [c];
        assert SubstAll(rest, [c]) == Subst(rest, c) + SubstAll(rest, []);
      }
    }
  }

  /** A chain of independent one-character replacements rewrites each
      character of the input on its own. */
  lemma {:induction false} ReplaceEachIsSubstAll(s: string, rules: seq<Rule>)
    requires Independent(rules)
    ensures ReplaceEach(s, rules) == SubstAll(rules, s)
    decreases |rules|
  {
    if rules == [] {
      SubstAllUntouched(rules, s);
    } else {
      var r, rest := rules[0], rules[1..];
      assert rules == [r] + rest;
      assert Independent(rest) by {
        forall i, j, c | 0 <= i < j < |rest| && c in rest[i].text
          ensures c != rest[j].key
        {
          assert rest[i] == rules[i + 1] && rest[j] == rules[j + 1];
        }
      }
      assert forall c | c in r.text :: Untouched(rest, c) by {
        forall c, x | c in r.text && x in rest ensures x.key != c {
          var j :| 0 <= j < |rest| && rest[j] == x;
          assert rules[j + 1] == x;
        }
      }
      ReplaceCharIsSubst(s, r);
      ReplaceEachIsSubstAll(Replace(s, [r.key], r.text), rest);
      SubstAllCompose(r, rest, s);
    }
  }

  /** Rules that never insert a character that is a key are independent. */
  lemma IndependentBySeparation(rules: seq<Rule>, keys: set<char>)
    requires forall r | r in rules :: r.key in keys
    requires forall r, c | r in rules && c in r.text :: c !in keys
    ensures Independent(rules)
  {
    forall i, j, c | 0 <= i < j < |rules| && c in rules[i].text
      ensures c != rules[j].key
    {
      assert rules[i] in rules && rules[j] in rules;
    }
  }
}

=== FILE: triples.dfy ===
/** `triple`: one N-Triples statement line, `subject predicate object .`
    followed by a newline, built from plain strings. The namespace table the
    source reads from its module-level singleton is a parameter here. */
module Triples {
  import opened Results
  import opened Strings
  import Namespaces
  import Encoding
  import Decoding

  const RdfType := "http://www.w3.org/1999/02/22-rdf-syntax-ns#type"
  const XsdNs := "http://www.w3.org/2001/XMLSchema#"

  /** The subject: wrapped and cleaned when it starts with `http`, otherwise
      written as it is (a blank node such as `_:b1`, or anything else). */
  function SubjectTerm(s: string): string {
    if "http" <= s then "<" + Encoding.CleanUri(s) + ">" else s
  }

  /** The predicate: `a` is `rdf:type`; an `http` IRI is wrapped without
      cleaning; `prefix:local` is expanded through the table, where more than
      one colon fails to unpack and an unknown prefix fails to look up; a
      predicate of none of these shapes writes nothing. */
  function PredicateTerm(ns: Namespaces.Manager, p: string): Result<string> {
    if p == "a" then Ok("<" + RdfType + ">")
    else if "http" <= p then Ok("<" + p + ">")
    else if ':' in p then
      var parts := Split(p, ':');
      if |parts| != 2 then Err(ValueError)
      else
        match Namespaces.Get(ns, parts[0])
        case Err(e) => Err(e)
        case Ok(base) => Ok("<" + base + parts[1] + ">")
    else Ok("")
  }

  /** The suffix of a literal object: a datatype IRI for an `xsd:` tag, a
      language tag for an alphabetic one, nothing otherwise. */
  function LiteralSuffix(tag: string): string {
    if tag == [] then []
    else if "xsd:" <= tag then "^^<" + XsdNs + tag[4..] + ">"
    else if IsAlpha(tag) then "@" + tag
    else []
  }

  /** The IRI branch of the object is taken for an `http` object unless the
      tag asks for an `xsd:string` literal. */
  predicate IsIriObject(o: string, tag: string) {
    "http" <= o && tag != "xsd:string"
  }

  /** The object: an IRI, a blank node, or a quoted literal, tried in that
      order. The literal's quotes are escaped once here and once more by
      `literal`. */
  function ObjectTerm(o: string, tag: string): string {
    if IsIriObject(o, tag) then "<" + Encoding.CleanUri(o) + ">"
    else if "_:" <= o then o
    else "\"" + Encoding.Literal(Replace(o, "\"", "\\\"")) + "\"" + LiteralSuffix(tag)
  }

  /** `triple(s, p, o, lang_or_dt)`: fails exactly when the predicate fails,
      with the predicate's error; otherwise one line ending in ` .` and a
      newline. */
  function Triple(ns: Namespaces.Manager, s: string, p: string, o: string, tag: string): (r: Result<string>)
    ensures r.Ok? <==> PredicateTerm(ns, p).Ok?
    ensures r.Err? ==> r.error == PredicateTerm(ns, p).error
    ensures r.Ok? ==> |r.value| >= 3 && r.value[|r.value| - 3..] == " .\n"
  {
    match PredicateTerm(ns, p)
    case Err(e) => Err(e)
    case Ok(pt) => Ok(SubjectTerm(s) + " " + pt + " " + ObjectTerm(o, tag) + " .\n")
  }

  // ---- the subject ----

  /** A line opens with the cleaned, wrapped subject exactly when the subject
      starts with `http`, and with the subject itself otherwise. */
  lemma TripleSubject(ns: Namespaces.Manager, s: string, p: string, o: string, tag: string)
    requires Triple(ns, s, p, o, tag).Ok?
    ensures "http" <= s ==> "<" + Encoding.CleanUri(s) + "> " <= Triple(ns, s, p, o, tag).value
    ensures !("http" <= s) ==> s + " " <= Triple(ns, s, p, o, tag).value
  {
    LineShape(ns, s, p, o, tag);
    var rest := PredicateTerm(ns, p).value + " " + ObjectTerm(o, tag) + " .\n";
    HeadOf(SubjectTerm(s) + " ", rest);
    if "http" <= s {
      Bracketed(Encoding.CleanUri(s));
    }
  }

  lemma HeadOf(head: string, rest: string)
    ensures head <= head + rest
  {
    assert (head + rest)[..|head|] == head;
  }

  lemma Bracketed(t: string)
    ensures ("<" + t + ">") + " " == "<" + t + "> "
  {
  }

  /** The successful line regrouped as its first field and the rest, the
      shape `TripleSubject` reads the opening of the line from. */
  lemma LineShape(ns: Namespaces.Manager, s: string, p: string, o: string, tag: string)
    requires PredicateTerm(ns, p).Ok?
    ensures Triple(ns, s, p, o, tag).value
      == (SubjectTerm(s) + " ") + (PredicateTerm(ns, p).value + " " + ObjectTerm(o, tag) + " .\n")
  {
    JoinFields(SubjectTerm(s), PredicateTerm(ns, p).value, ObjectTerm(o, tag));
  }

  lemma JoinFields(st: string, pt: string, ot: string)
    ensures st + " " + pt + " " + ot + " .\n" == (st + " ") + (pt + " " + ot + " .\n")
  {
  }

  // ---- the predicate ----

  /** `a` stands for `rdf:type` whatever the table holds. */
  lemma TypePredicateAnyTable(ns1: Namespaces.Manager, ns2: Namespaces.Manager, s: string, o: string, tag: string)
    ensures Triple(ns1, s, "a", o, tag) == Triple(ns2, s, "a", o, tag)
    ensures Triple(ns1, s, "a", o, tag)
      == Ok(SubjectTerm(s) + " <" + RdfType + "> " + ObjectTerm(o, tag) + " .\n")
  {
    TypeFields(SubjectTerm(s), ObjectTerm(o, tag));
  }

  lemma TypeFields(st: string, ot: string)
    ensures st + " " + ("<" + RdfType + ">") + " " + ot + " .\n"
      == st + " <" + RdfType + "> " + ot + " .\n"
  {
  }

  /** An `http` predicate is wrapped as it is: reserved characters in it are
      not percent-encoded. */
  lemma IriPredicateUncleaned(ns: Namespaces.Manager, p: string)
    requires "http" <= p
    ensures PredicateTerm(ns, p) == Ok("<" + p + ">")
    ensures forall c | c in p :: c in PredicateTerm(ns, p).value
  {
    assert p != "a";
  }

  /** `x:y` becomes `<` + the base IRI of `x` + `y` + `>`, or fails with
      `KeyError(x)` when `x` is not in the table. */
  lemma PrefixedPredicate(ns: Namespaces.Manager, x: string, y: string)
    requires ':' !in x && ':' !in y
    requires !("http" <= x + ":" + y)
    ensures x in ns.namespaces ==>
      PredicateTerm(ns, x + ":" + y) == Ok("<" + ns.namespaces[x] + y + ">")
    ensures x !in ns.namespaces ==>
      PredicateTerm(ns, x + ":" + y) == Err(KeyError(x))
  {
    var p := x + ":" + y;
    assert p[|x|] == ':';
    assert p != "a";
    SplitOnce(x, y, ':');
  }

  /** A predicate with two or more colons cannot be unpacked into prefix and
      local name. */
  lemma ManyColonsPredicate(ns: Namespaces.Manager, x: string, y: string)
    requires ':' !in x && ':' in y
    requires !("http" <= x + ":" + y)
    ensures PredicateTerm(ns, x + ":" + y) == Err(ValueError)
  {
    var p := x + ":" + y;
    assert p[|x|] == ':';
    assert p != "a";
    CountAppend(x + ":", y, ':');
    CountAppend(x, ":", ':');
    CountAbsent(x, ':');
    CountAbsent(y, ':');
  }

  /** A predicate that is not `a`, not `http` and has no colon writes
      nothing, leaving two spaces between subject and object. */
  lemma BarePredicate(ns: Namespaces.Manager, s: string, p: string, o: string, tag: string)
    requires p != "a" && !("http" <= p) && ':' !in p
    ensures Triple(ns, s, p, o, tag) == Ok(SubjectTerm(s) + "  " + ObjectTerm(o, tag) + " .\n")
  {
    EmptyField(SubjectTerm(s), ObjectTerm(o, tag));
  }

  lemma EmptyField(st: string, ot: string)
    ensures st + " " + "" + " " + ot + " .\n" == st + "  " + ot + " .\n"
  {
  }

  // ---- the object ----

  /** The first character of the object tells which branch built it, and
      the branches are tried in order: IRI, blank node, literal. */
  lemma ObjectBranch(o: string, tag: string)
    ensures |ObjectTerm(o, tag)| > 0
    ensures ObjectTerm(o, tag)[0] == '<' <==> IsIriObject(o, tag)
    ensures ObjectTerm(o, tag)[0] == '_' <==> !IsIriObject(o, tag) && "_:" <= o
    ensures ObjectTerm(o, tag)[0] == '"' <==> !IsIriObject(o, tag) && !("_:" <= o)
  {
  }

  /** An IRI or blank-node object carries no suffix: the tag matters only in
      choosing the branch. */
  lemma NonLiteralIgnoresTag(o: string, tag1: string, tag2: string)
    requires (IsIriObject(o, tag1) && IsIriObject(o, tag2))
             || (!IsIriObject(o, tag1) && !IsIriObject(o, tag2) && "_:" <= o)
    ensures ObjectTerm(o, tag1) == ObjectTerm(o, tag2)
  {
  }

  /** A literal object is a quoted body and a suffix. The body is ASCII,
      holds no newline and escapes every quote. For an object below U+10000
      it reads back to the object with each of its quotes already escaped
      once: the escaping at the call site and the escaping in `literal` add
      up. */
  lemma LiteralObject(o: string, tag: string)
    requires !IsIriObject(o, tag) && !("_:" <= o)
    ensures var body := Encoding.Literal(Replace(o, "\"", "\\\""));
      && ObjectTerm(o, tag) == "\"" + body + "\"" + LiteralSuffix(tag)
      && (forall d | d in body :: Encoding.AsciiNoNewline(d))
      && Encoding.Escaped(body)
      && ((forall i | 0 <= i < |o| :: o[i] as int < 0x10000) ==>
            Decoding.Unescape(body) == Some(Replace(o, "\"", "\\\"")))
  {
    var v := Replace(o, "\"", "\\\"");
    Encoding.LiteralAscii(v);
    Encoding.LiteralQuotesEscaped(v);
    if forall i | 0 <= i < |o| :: o[i] as int < 0x10000 {
      QuoteEscapeBmp(o, v);
      Decoding.LiteralRoundTrip(v);
    }
  }

  lemma QuoteEscapeBmp(o: string, v: string)
    requires forall i | 0 <= i < |o| :: o[i] as int < 0x10000
    requires v == Replace(o, "\"", "\\\"")
    ensures forall i | 0 <= i < |v| :: v[i] as int < 0x10000
  {
    ReplaceChars(o, "\"", "\\\"");
    forall i | 0 <= i < |v| ensures v[i] as int < 0x10000 {
      assert v[i] in v;
      if v[i] in o {
        var j :| 0 <= j < |o| && o[j] == v[i];
      }
    }
  }

  // The lone-quote lemmas below take their text as a parameter fixed by a `requires`: with
  // the literal written into the `ensures`, the solver unfolds every
  // function over it at once, at many times the cost.

  /** A quote in a literal object reads back as backslash-quote, not as the
      quote the caller passed. */
  lemma QuoteEscapedTwice(o: string)
    requires o == "\""
    ensures ObjectTerm(o, "") == "\"\\\\\\\"\""
    ensures Decoding.Unescape(Encoding.Literal(Replace(o, "\"", "\\\""))) == Some("\\\"")
  {
    QuoteReplaced(o);
    assert o[0] == '"';
    Encoding.LiteralBackslashQuote();
    Decoding.LiteralRoundTrip("\\\"");
  }

  lemma QuoteReplaced(o: string)
    requires o == "\""
    ensures Replace(o, "\"", "\\\"") == "\\\""
  {
    assert "\"" <= o && o[1..] == [];
  }

  /** A literal gets a datatype IRI for an `xsd:` tag, else a language tag
      for an alphabetic tag, else nothing: never both, and a malformed tag is
      dropped without an error. */
  lemma SuffixChoice(tag: string)
    ensures LiteralSuffix(tag) == [] <==> !("xsd:" <= tag) && !IsAlpha(tag)
    ensures "xsd:" <= tag ==> LiteralSuffix(tag) == "^^<" + XsdNs + tag[4..] + ">"
    ensures !("xsd:" <= tag) && IsAlpha(tag) ==> LiteralSuffix(tag) == "@" + tag
  {
    if "xsd:" <= tag {
      assert LiteralSuffix(tag)[0] == '^';
    } else if IsAlpha(tag) {
      assert LiteralSuffix(tag)[0] == '@';
    }
  }
}

=== FILE: whitespace.dfy ===
/** `strip_ws`: deleting runs of whitespace with a regular-expression
    substitution of `\s+` by the empty string. The substitution takes a
    count of replacements, where 0 means no limit; `strip_ws` passes the
    flag constant `re.S`, whose value is 16, in the count position. */
module Whitespace {

  /** The characters `\s` matches without the Unicode flag. */
  predicate IsSpace(c: char) {
    c == ' ' || c == '\t' || c == '\n' || c == '\r' || c == '\U{0B}' || c == '\U{0C}'
  }

  /** Python's `re.S`. */
  const DotAll: nat := 16

  /** The text after the whitespace run at the front of `s`. */
  function SkipSpace(s: string): (r: string)
    ensures |r| <= |s|
    ensures r == [] || !IsSpace(r[0])
    ensures s != [] && IsSpace(s[0]) ==> |r| < |s|
    decreases |s|
  {
    if s != [] && IsSpace(s[0]) then SkipSpace(s[1..]) else s
  }

  /** The number of maximal whitespace runs in `s`, which is the number of
      matches of `\s+`. */
  function Runs(s: string): nat
    decreases |s|
  {
    if s == [] then 0
    else if IsSpace(s[0]) then 1 + Runs(SkipSpace(s))
    else Runs(s[1..])
  }

  /** The characters of `s` that are not whitespace, in order. */
  function NonSpace(s: string): string
    decreases |s|
  {
    if s == [] then []
    else (if IsSpace(s[0]) then [] else [s[0]]) + NonSpace(s[1..])
  }

  /** Deletes the first `k` whitespace runs of `s`, scanning left to right. */
  function RemoveRuns(s: string, k: nat): string
    decreases |s|
  {
    if k == 0 || s == [] then s
    else if IsSpace(s[0]) then RemoveRuns(SkipSpace(s), k - 1)
    else [s[0]] + RemoveRuns(s[1..], k)
  }

  /** `re.sub('\s+', '', text, count)`: a count of 0 deletes every run. */
  function SubSpace(text: string, count: nat): string {
    RemoveRuns(text, if count == 0 then Runs(text) else count)
  }

  /** `strip_ws` as written: the flag lands in the count position. */
  function StripWs(text: string): string {
    SubSpace(text, DotAll)
  }

  /** `strip_ws` as evidently intended: no limit on the runs deleted. */
  function StripAllWs(text: string): string {
    SubSpace(text, 0)
  }

  // ---- facts about runs ----

  lemma {:induction false} NonSpaceSkip(s: string)
    ensures NonSpace(SkipSpace(s)) == NonSpace(s)
    decreases |s|
  {
    if s != [] && IsSpace(s[0]) {
      NonSpaceSkip(s[1..]);
    }
  }

  /** Text without whitespace runs is text without whitespace. */
  lemma {:induction false} NoRuns(s: string)
    ensures Runs(s) == 0 <==> forall i | 0 <= i < |s| :: !IsSpace(s[i])
    decreases |s|
  {
    if s != [] && !IsSpace(s[0]) {
      NoRuns(s[1..]);
      assert forall i | 1 <= i < |s| :: s[i] == s[1..][i - 1];
    }
  }

  /** Without whitespace, dropping the whitespace changes nothing. */
  lemma {:induction false} NonSpaceOfClean(s: string)
    requires forall i | 0 <= i < |s| :: !IsSpace(s[i])
    ensures NonSpace(s) == s
    decreases |s|
  {
    if s != [] {
      NonSpaceOfClean(s[1..]);
      assert [s[0]] + s[1..] == s;
    }
  }

  /** Deleting runs keeps every other character, in order. */
  lemma {:induction false} RemoveRunsKeeps(s: string, k: nat)
    ensures NonSpace(RemoveRuns(s, k)) == NonSpace(s)
    decreases |s|
  {
    if k == 0 || s == [] {
    } else if IsSpace(s[0]) {
      RemoveRunsKeeps(SkipSpace(s), k - 1);
      NonSpaceSkip(s);
    } else {
      RemoveRunsKeeps(s[1..], k);
      var t := [s[0]] + RemoveRuns(s[1..], k);
      assert t[0] == s[0] && t[1..] == RemoveRuns(s[1..], k);
    }
  }

  /** Deleting `k` runs leaves `Runs(s) - k` runs: two pieces of text on
      either side of a deleted run are both non-whitespace where they meet,
      so no runs merge and none appear. `RemoveRunsPrefix` says which runs
      go. */
  lemma {:induction false} RemoveRunsCount(s: string, k: nat)
    ensures Runs(RemoveRuns(s, k)) == if Runs(s) <= k then 0 else Runs(s) - k
    decreases |s|
  {
    if k == 0 || s == [] {
    } else if IsSpace(s[0]) {
      RemoveRunsCount(SkipSpace(s), k - 1);
      SpaceStep(s, k);
    } else {
      RemoveRunsCount(s[1..], k);
      LetterStep(s, k);
    }
  }

  lemma SpaceStep(s: string, k: nat)
    requires k > 0 && s != [] && IsSpace(s[0])
    ensures RemoveRuns(s, k) == RemoveRuns(SkipSpace(s), k - 1)
    ensures Runs(s) == 1 + Runs(SkipSpace(s))
  {
  }

  lemma LetterStep(s: string, k: nat)
    requires k > 0 && s != [] && !IsSpace(s[0])
    ensures Runs(RemoveRuns(s, k)) == Runs(RemoveRuns(s[1..], k))
    ensures Runs(s) == Runs(s[1..])
  {
    var t := [s[0]] + RemoveRuns(s[1..], k);
    assert t[0] == s[0] && t[1..] == RemoveRuns(s[1..], k);
    assert RemoveRuns(s, k) == t;
  }

  /** `SkipSpace` drops a whitespace prefix and keeps the rest as it is. */
  lemma {:induction false} SkipSpaceSuffix(s: string)
    ensures SkipSpace(s) == s[|s| - |SkipSpace(s)|..]
    ensures forall m | 0 <= m < |s| - |SkipSpace(s)| :: IsSpace(s[m])
    decreases |s|
  {
    if s != [] && IsSpace(s[0]) {
      SkipSpaceSuffix(s[1..]);
      assert forall m | 1 <= m < |s| :: s[m] == s[1..][m - 1];
    }
  }

  /** Cutting `s` after its leading run commutes with skipping that run. */
  lemma {:induction false} SkipSpacePrefix(s: string, i: nat)
    requires |s| - |SkipSpace(s)| <= i <= |s|
    ensures SkipSpace(s[..i]) == SkipSpace(s)[..i - (|s| - |SkipSpace(s)|)]
    decreases |s|
  {
    if s != [] && IsSpace(s[0]) {
      SkipSpacePrefix(s[1..], i - 1);
      assert s[..i][1..] == s[1..][..i - 1];
    }
  }

  /** The length of the prefix of `s` that `RemoveRuns(s, k)` works through:
      up to the end of the `k`-th run, or all of `s` if it has fewer. */
  function RunsEnd(s: string, k: nat): (i: nat)
    ensures i <= |s|
    decreases |s|
  {
    if k == 0 || s == [] then 0
    else if IsSpace(s[0]) then |s| - |SkipSpace(s)| + RunsEnd(SkipSpace(s), k - 1)
    else 1 + RunsEnd(s[1..], k)
  }

  /** Deleting `k` runs deletes exactly the whitespace of a prefix holding the
      first `k` runs and leaves the text after it as it is. */
  lemma {:induction false} RemoveRunsPrefix(s: string, k: nat)
    ensures var i := RunsEnd(s, k);
      && Runs(s[..i]) == (if k <= Runs(s) then k else Runs(s))
      && RemoveRuns(s, k) == NonSpace(s[..i]) + s[i..]
    decreases |s|
  {
    var i := RunsEnd(s, k);
    if k == 0 || s == [] {
      assert s[..i] == [] && s[i..] == s;
    } else if IsSpace(s[0]) {
      RemoveRunsPrefix(SkipSpace(s), k - 1);
      PrefixSpaceStep(s, k);
    } else {
      RemoveRunsPrefix(s[1..], k);
      var p := s[..i];
      assert p[0] == s[0] && p[1..] == s[1..][..i - 1];
      assert s[i..] == s[1..][i - 1..];
    }
  }

  /** Cutting after a leading run and `k - 1` more is the run, then the cut
      of the rest. */
  lemma PrefixSpaceStep(s: string, k: nat)
    requires k > 0 && s != [] && IsSpace(s[0])
    ensures var t := SkipSpace(s);
      var i := RunsEnd(s, k);
      var i' := RunsEnd(t, k - 1);
      && Runs(s[..i]) == 1 + Runs(t[..i'])
      && NonSpace(s[..i]) == NonSpace(t[..i'])
      && s[i..] == t[i'..]
      && RemoveRuns(s, k) == RemoveRuns(t, k - 1)
      && Runs(s) == 1 + Runs(t)
  {
    var t := SkipSpace(s);
    var i := RunsEnd(s, k);
    SkipSpaceSuffix(s);
    SkipSpacePrefix(s, i);
    NonSpaceSkip(s[..i]);
    assert s[..i][0] == s[0];
  }

  // ---- the substitution ----

  /** Substituting with no limit, or with a limit at least the number of
      runs, leaves exactly the non-whitespace characters of the text. */
  lemma SubSpaceAll(text: string, count: nat)
    requires count == 0 || Runs(text) <= count
    ensures SubSpace(text, count) == NonSpace(text)
    ensures forall i | 0 <= i < |SubSpace(text, count)| :: !IsSpace(SubSpace(text, count)[i])
  {
    var k := if count == 0 then Runs(text) else count;
    var r := RemoveRuns(text, k);
    RemoveRunsCount(text, k);
    NoRuns(r);
    RemoveRunsKeeps(text, k);
    NonSpaceOfClean(r);
  }

  /** With a limit below the number of runs, whitespace is left over:
      exactly the runs past the limit. */
  lemma SubSpaceLimited(text: string, count: nat)
    requires 0 < count < Runs(text)
    ensures Runs(SubSpace(text, count)) == Runs(text) - count
    ensures exists i | 0 <= i < |SubSpace(text, count)| :: IsSpace(SubSpace(text, count)[i])
    ensures NonSpace(SubSpace(text, count)) == NonSpace(text)
    ensures exists i | 0 <= i <= |text| ::
      Runs(text[..i]) == count && SubSpace(text, count) == NonSpace(text[..i]) + text[i..]
  {
    RemoveRunsPrefix(text, count);
    RemoveRunsCount(text, count);
    NoRuns(SubSpace(text, count));
    RemoveRunsKeeps(text, count);
  }

  /** `strip_ws` as written removes all whitespace from text of at most
      sixteen runs, and leaves whitespace in text of more. */
  lemma StripWsLimit(text: string)
    ensures Runs(text) <= 16 ==> StripWs(text) == NonSpace(text)
    ensures Runs(text) > 16 ==> exists i | 0 <= i < |StripWs(text)| :: IsSpace(StripWs(text)[i])
  {
    if Runs(text) <= 16 {
      SubSpaceAll(text, DotAll);
    } else {
      assert StripWs(text) == SubSpace(text, DotAll);
      SubSpaceLimited(text, DotAll);
    }
  }

  /** `k` letters `x`. */
  function Xs(k: nat): string {
    if k == 0 then [] else "x" + Xs(k - 1)
  }

  /** `n` single spaces between `n + 1` letters `x`. */
  function Spaced(n: nat): string {
    if n == 0 then "x" else "x " + Spaced(n - 1)
  }

  lemma {:induction false} SpacedRuns(n: nat)
    ensures Runs(Spaced(n)) == n
  {
    if n > 0 {
      SpacedRuns(n - 1);
      SpacedStep(n);
    }
  }

  /** After its first letter, `Spaced(n)` is one space and `Spaced(n - 1)`. */
  lemma SpacedStep(n: nat)
    requires n > 0
    ensures Spaced(n)[0] == 'x' && Spaced(n)[1..] == " " + Spaced(n - 1)
    ensures SkipSpace(Spaced(n)[1..]) == Spaced(n - 1)
  {
    var tail := Spaced(n)[1..];
    assert tail == " " + Spaced(n - 1);
    assert tail[1..] == Spaced(n - 1);
    assert Spaced(n - 1)[0] == 'x';
  }

  /** Deleting the first `k` of the `n` spaces joins the first `k + 1`
      letters and leaves the rest spaced. */
  lemma {:induction false} SpacedRemove(n: nat, k: nat)
    requires k <= n
    ensures RemoveRuns(Spaced(n), k) == Xs(k) + Spaced(n - k)
  {
    if k > 0 {
      SpacedRemove(n - 1, k - 1);
      SpacedRemoveStep(n, k);
      XsCons(k, Spaced(n - k));
    }
  }

  lemma XsCons(k: nat, t: string)
    requires k > 0
    ensures "x" + (Xs(k - 1) + t) == Xs(k) + t
  {
  }

  lemma SpacedRemoveStep(n: nat, k: nat)
    requires 0 < k <= n
    ensures RemoveRuns(Spaced(n), k) == "x" + RemoveRuns(Spaced(n - 1), k - 1)
  {
    SpacedStep(n);
    var tail := Spaced(n)[1..];
    assert RemoveRuns(tail, k) == RemoveRuns(SkipSpace(tail), k - 1);
  }

  /** Seventeen spaces between letters: sixteen are deleted and the last one
      survives. */
  lemma SeventeenRuns()
    ensures StripWs(Spaced(17)) == Xs(16) + "x x"
  {
    SpacedRuns(17);
    SpacedRemove(17, 16);
    assert Spaced(1) == "x x";
  }

  /** The corrected `strip_ws` leaves no whitespace at all, and every other
      character in order. */
  lemma StripAllWsClean(text: string)
    ensures StripAllWs(text) == NonSpace(text)
    ensures forall i | 0 <= i < |StripAllWs(text)| :: !IsSpace(StripAllWs(text)[i])
  {
    SubSpaceAll(text, 0);
  }
}
